=== FILE: README.md ===
# Concurrent sudoku solver — a Dafny model of its core

This project models the core of a small Go sudoku solver. The solver reads a
puzzle from a text file into a `Sudoku` (a slice of `Row`s of `int`, with 0
marking an empty cell). Its outer loop repeats these steps:

1. Check whether the board is solved.
2. Count the empty cells and bump a shared iteration counter. It gives up at
   10 000 000 iterations.
3. Run one propagation pass. The pass writes every cell that has exactly one
   eligible value, and returns "No solve" at the first empty cell whose map has nine
   ineligible values.
4. If the pass filled nothing, pick the empty cell with the fewest eligible
   values and start one goroutine per value on a copy of the board with that
   value written in. The first decisive answer from the children is then
   collected.

The model covers:

- The board helpers of `solver/util.go`: copy, validation, box arithmetic,
  empty-cell count, eligibility map, single-candidate update, cell write and
  candidate listing.
- One iteration of the loop in `solver/solve_sudoku.go`, including the
  branching step and the collecting loop.
- Line tokenisation and `convertToRow` of `solver/board.go`, including Go's
  `strconv.Atoi`, `strings.Fields` and `strings.Replace` behaviour.
- The types of `solver/variables.go`.

Modules, one per file:

- `SudokuTypes` (types.dfy): `Sudoku`, `Row`, `ValidNumbers`, `Cell` and the
  constants `RowLength`/`ColLength`. Also eligible and ineligible key sets,
  and the predicates `IsGrid` (a 9×9 board) and `InDomain` (values 0..9).
- `Boxes`: `getSquareBoxIndex` and `squareBoxes`.
- `Grid`: `MakeCopy`, `UnfilledCells` and `WriteToCell`. It also defines the
  order "board t completes board s" (`Extends`) and the sudoku rule
  `NoConflicts`.
- `Candidates`: `GetValidNumMap`, `UpdateCellWithValidNum` and
  `ListValidNumbers`.
- `Validate`: the solved check `ValidateSudoku` exactly as written, with its
  helpers `mapValidNum`, `isRowFilledWithNum` and `rowHasNonRepeatingNum`.
- `RepairedCheck`: the solved check with `mapValidNum` repaired (see
  Findings), and the proof that it accepts exactly the solved 9×9 boards.
- `Propagation`: the propagation pass (solve_sudoku.go:38-49). `PassFrom` is
  its cell-by-cell reference definition.
- `Branching`: selection of the most constrained cell, the child boards, and
  the collecting loop over the children's reports.
- `Parser`: `strconv.Atoi`, `strings.Fields`, comma replacement,
  `convertToRow` and `CreateBoard`'s line loop.
- `Iteration`: one pass of the outer loop, tying the modules together: as
  written, and with the repaired solved check.

Go slices are shared in place. Boards here are immutable `seq<seq<int>>`
values, so an in-place write becomes a function returning the new board.
The propagation pass ranges over the rows while writing into them. Because
each `row` shares the board's storage, a value written earlier in the pass is
visible to later cells. The model's pass therefore always reads the current
board.

Go map iteration order is unspecified. The map loops (the counting loop of
`UpdateCellWithValidNum`, `ListValidNumbers`) therefore pick keys by
arbitrary choice (`:|`), so their contracts hold for every order.

## Model

| member | source | states |
|---|---|---|
| Boxes.GetSquareBoxIndex | solver/util.go:68-114 | The box number is always in 0..8. For a cell of the 9×9 board it is 3·(row/3)+col/3, numbering the boxes row by row. A row or column index of 9 or more falls through every branch to box 0. |
| Boxes.SquareBoxes | solver/util.go:116-176 | For a cell of the board, the bounds are the rows and columns of its 3×3 box, and the box contains the cell. With a row or column index of 9 or more the bounds are all zero. |
| Boxes.SquareBoxesAgreeWithIndex | solver/util.go:68-176 | The two box computations agree. Cell (i,j) lies within the bounds computed for (r,c) exactly when both cells get the same box number, and exactly when they share a 3×3 box. |
| Grid.MakeCopy | solver/util.go:14-31 | The copy has the same number of rows, each row has the same length, and every cell holds the same value. |
| Grid.UnfilledCells | solver/util.go:224-240 | The count equals the number of cells holding 0. It is zero exactly when no cell is empty, and on a 9×9 board it is at most 81. |
| Grid.ColumnOf | solver/util.go:256-263 | The column gathered for index c holds exactly the values at position c of the rows long enough to have one. When every row is long enough, it is the rows' c-th values in row order. |
| Grid.RowPart | solver/util.go:268-273 | The part of one row gathered for a box holds exactly the row's values whose position lies within the box's column bounds. |
| Grid.BoxOf | solver/util.go:265-274 | The gathered box holds exactly the values of the board's cells that lie within the bounds. |
| Grid.WriteToCell | solver/util.go:345-353 | The target cell holds the value afterwards, every other cell and the board's shape are unchanged, and a 9×9 board stays 9×9. |
| Grid.WriteExtends | solver/util.go:345-353 | Writing a digit into an empty cell produces a completion of the board. A completion of the original board that agrees on that cell also completes the written board. |
| Grid.ExtendsCount | solver/solve_sudoku.go:58 | Completing a board never increases its number of empty cells, and any change strictly decreases it. The loop's progress test relies on this. |
| Grid.WriteCandidateKeepsNoConflicts | solver/solve_sudoku.go:94-95 | Writing a value that no cell of the same row, column or box holds keeps a conflict-free 9×9 board conflict-free. |
| Candidates.AllEligible | solver/util.go:246-250 | The starting map has exactly the keys 1..9, all eligible. |
| Candidates.Eliminate | solver/util.go:276-293 | After the elimination loops, the keys are the old keys plus every non-zero value listed. A key is eligible exactly when it was eligible and is zero or not listed. |
| Candidates.GetValidNumMap | solver/util.go:243-300 | The keys are 1..9 plus every non-zero value seen in the cell's row, column or box. A key is eligible exactly when it is a digit and is seen nowhere near the cell. |
| Candidates.GetValidNumMapKeys | solver/variables.go:6-9 | The type's promise that the map always has exactly the keys 1..9 holds exactly when every non-zero value near the cell is a digit. In particular it holds on every board of values 0..9. |
| Candidates.CandidatesOnGrid | solver/util.go:243-300 | On a 9×9 board a value is eligible for a cell exactly when it is a digit that no cell of the same row, column or box holds, the cell itself included. |
| Candidates.OutcomeFacts | solver/util.go:302-342 | Outcomes on a map whose keys are exactly 1..9: -1 exactly when nothing is eligible, the digit exactly when one value is eligible, 0 exactly when several are. Without that assumption, nine ineligible keys always give -1. |
| Candidates.TenIneligibleUndecided | solver/util.go:327-334 | For any map, if no key is eligible but every digit and one more value are ineligible, the outcome is 0 and not -1: the -1 signal needs exactly nine ineligible keys. |
| Candidates.StrayValueMasksDeadEnd | solver/util.go:318-335 | Suppose every digit is seen near the cell and so is some other non-zero value such as 12. Then nothing is eligible, yet the outcome is 0 and not -1: the dead end goes unreported. |
| Candidates.CountEligible | solver/util.go:314-325 | In any visiting order, the loop counts exactly the eligible and the ineligible keys. It remembers an eligible key, which is the only one when exactly one is eligible. |
| Candidates.UpdateCellWithValidNum | solver/util.go:302-342 | The result does not depend on the map's iteration order, and it agrees with OutcomeFacts. The cell is written exactly when the reported value is a digit, and the board is unchanged otherwise. |
| Candidates.ListValidNumbers | solver/util.go:356-364 | The list holds exactly the eligible keys, each once, in some order. |
| Validate.MapValidNum | solver/util.go:33-40 | The map marks every digit 1..9 eligible whatever the row holds: the receiver is never read. |
| Validate.IsRowFilledWithNum | solver/util.go:43-51 | As written, the test is false for every row. |
| Validate.RowHasNonRepeatingNum | solver/util.go:54-65 | True exactly when no value occurs twice in the row. |
| Validate.ValidateSudoku | solver/util.go:178-221 | As written, the check accepts exactly the board with no rows. |
| Validate.ValidateSudokuRejectsSolvedBoards | solver/util.go:178-221 | As written, the check rejects every correctly solved 9×9 board, because its first row already fails the filled test. |
| RepairedCheck.IsRowFilledWithNumMisses | solver/util.go:43-51 | The row 1..9 is reported as not filled by the code as written, and as filled by the repaired test. |
| RepairedCheck.IsRowFilledWithNumCorrected | solver/util.go:43-51 | The repaired test is true exactly when every digit 1..9 occurs in the row. |
| RepairedCheck.RowPassesCorrectedIff | solver/util.go:191 | A row of nine values passes the repaired row test exactly when all nine are digits and none repeats. |
| RepairedCheck.RowsCorrect | solver/util.go:190-193 | On a 9×9 board every row passes exactly when all cells are digits and no row repeats a value. |
| RepairedCheck.ColumnsCorrect | solver/util.go:195-211 | On a 9×9 board of digits, the columns gathered by the row loop all pass exactly when no column repeats a value. |
| RepairedCheck.BoxByIndexOfGrid | solver/util.go:199-201 | On a 9×9 board, the values gathered under box number b are exactly box b's nine cells, in row-major order. |
| RepairedCheck.BoxesCorrect | solver/util.go:199-219 | On a 9×9 board of digits, every gathered box passes exactly when no 3×3 box repeats a value. |
| RepairedCheck.UnitsFreeOfRepeats | solver/util.go:178-181 | On a 9×9 board of digits, "no two cells of a row, column or box are equal" is the same as rows, columns and boxes each free of repeats. |
| RepairedCheck.ValidateSudokuCorrectedMeansSolved | solver/util.go:178-221 | On a 9×9 board the repaired check accepts exactly the solved boards: all cells digits 1..9, with no repeat in any row, column or box. |
| Propagation.StepStops | solver/solve_sudoku.go:40-46 | The pass stops only at an empty cell of the board whose map has nine ineligible keys. |
| Propagation.StepSkips | solver/solve_sudoku.go:40-43 | On a board of values 0..9, an empty cell left unwritten has at least two eligible values. |
| Propagation.SolutionValueEligible | solver/util.go:243-300 | In any solved completion of a 9×9 board, the value at an empty cell is eligible for that cell. |
| Propagation.StepKeepsSolutions | solver/solve_sudoku.go:40-46 | A board with a solved completion never stops the pass, and every forced write keeps that completion reachable. |
| Propagation.StepWritesUnseen | solver/solve_sudoku.go:40-43 | On any board, a step that changes the board writes only into the empty cell it visits. The value it writes is a digit that no cell of the same row, column or box holds at that moment, so a write adds no repeat even when the puzzle already has one. |
| Propagation.StepKeepsNoConflicts | solver/solve_sudoku.go:40-43 | A forced write keeps a conflict-free 9×9 board conflict-free. |
| Propagation.PassRow | solver/solve_sudoku.go:39-48 | Scanning one row agrees with the reference pass. It either stops with "No solve" or hands the reference pass the updated board at the next row. |
| Propagation.PropagationPass | solver/solve_sudoku.go:38-49 | The pass's result equals the reference pass and completes the input board. It reduces the empty count strictly unless the board is unchanged. "No solve" leaves a witness cell with nine ineligible keys. A board with a solved completion never gets "No solve", and the completion is kept. A pass that writes nothing leaves at least two candidates in every empty cell. |
| Branching.FileBoard | solver/solve_sudoku.go:59-69 | After the scan, every candidate count of an empty cell is a key, and it maps to the last empty cell scanned with that count, together with that cell's map. |
| Branching.FirstFiledCount | solver/solve_sudoku.go:72-79 | The scan returns the smallest filed count in 2..9, or 10 when none is filed. |
| Branching.BranchCellValid | solver/variables.go:20-25 | On a 9×9 board of values 0..9, the most constrained cell is a Cell as the type documents: a position on the board and a map with exactly the keys 1..9. |
| Branching.SelectBranchCell | solver/solve_sudoku.go:59-79 | If some empty cell has 2..9 candidates, the chosen cell is the most constrained one: fewest candidates, ties going to the cell scanned last. Its map is the one recomputed for it. Otherwise no cell is chosen. |
| Branching.MostConstrainedUnique | solver/solve_sudoku.go:59-79 | The most constrained cell is unique, so the choice does not depend on anything but the board. |
| Branching.StalledBoardBranches | solver/solve_sudoku.go:58-79 | When every empty cell has at least two candidates, every empty cell is a possible branch cell. |
| Branching.BranchChildren | solver/solve_sudoku.go:85-95 | One child per eligible value of the chosen cell, with no value repeated. Each child is the board with that value written into the cell. |
| Branching.ChildrenCoverSolutions | solver/solve_sudoku.go:85-95 | Every solved completion of the board completes exactly one child: the child written with the completion's value. |
| Branching.ChildrenKeepNoConflicts | solver/solve_sudoku.go:85-95 | Every child of a conflict-free 9×9 board is conflict-free. |
| Branching.Collect | solver/solve_sudoku.go:112-127 | The loop carries on exactly when no report is decisive, meaning every child reported "No solve". Otherwise the first decisive report decides: a solved one is adopted, and any other means a restart from the invocation's input board. |
| Branching.CollectAdoptsOnlySolved | solver/solve_sudoku.go:118-120 | An adopted board is the board of a child that reported it solved. |
| Branching.CollectDependsOnArrivalOrder | solver/solve_sudoku.go:113-126 | The same two reports in the opposite arrival order give opposite decisions: a restart versus the adopted solution. |
| Parser.Atoi | solver/board.go:15-18 | A token is accepted only if it has at least one digit after an optional sign, so a bare sign is an error. Any character other than a digit or a leading sign is an error, and the value of an accepted token fits in 64 bits. The sign fixes the sign of the value, and every run of 1 to 18 digits is accepted. |
| Parser.AtoiValue | solver/board.go:15-18 | For a sign ("", "+" or "-") and a digit string of any length, Atoi returns the signed value of the digits when it fits in 64 bits, and an error otherwise. |
| Parser.AtoiIgnoresZerosAndPlus | solver/board.go:15 | Leading zeros and a plus sign do not change what a non-negative 64-bit integer reads as. |
| Parser.AtoiOfDecimal | solver/board.go:15 | Every 64-bit integer's decimal spelling is read back as that integer. |
| Parser.ReplaceCommas | solver/board.go:44 | The line keeps its length, every comma becomes a space, and every other character is kept. |
| Parser.Fields | solver/board.go:45 | Every field is non-empty and free of white space. |
| Parser.FieldsSplit | solver/board.go:44-45 | A white-space character splits the line: the fields are those of the text before it followed by those of the text after it. Runs of separators and leading or trailing white space add no empty field. With `FieldOfWord`, this fixes the fields of every line. |
| Parser.FieldOfWord | solver/board.go:45 | A non-empty word with no white space, followed by nothing or by white space, is the first field, and the rest of the line supplies the others. |
| Parser.PaddedWords | solver/board.go:44-45 | For any two words, a separator before them, a doubled separator between them and one after them still give exactly the two words as fields. |
| Parser.SeparatorRunsDropped | solver/board.go:44-45 | The line `,1,,2 ` splits into exactly the fields `1` and `2`: the leading comma, the doubled comma and the trailing space yield no empty field. |
| Parser.FieldsOfJoin | solver/board.go:45 | Splitting non-empty, space-free words joined by single spaces gives back the words. |
| Parser.FieldsUpToSpaces | solver/board.go:45 | Two lines that differ only in which white-space characters they use split into the same fields. |
| Parser.CommaActsAsSpace | solver/board.go:44-45 | Replacing a comma of a line by any white-space character does not change the parsed row. |
| Parser.ConvertToRow | solver/board.go:11-24 | One value per token, in order. A token Atoi accepts gives its value, and any other token gives 0. |
| Parser.CreateBoard | solver/board.go:43-48 | One row per input line, in order, each being that line's parsed row. |
| Parser.ParseFormattedRow | solver/board.go:43-48 | A row of 64-bit integers written as comma-separated decimals parses back to the same row. |
| Parser.SampleLine | solver/board.go:43-48 | The line "-3,12,x 5" parses to the row -3, 12, 0, 5. |
| Iteration.SolveIteration | solver/solve_sudoku.go:23-58 | The iteration uses the solved check as written. It stops at once only on the board with no rows, which it reports solved, and it never reports a board with a row solved. On a solved 9×9 board with budget left, it branches on the zero Cell with no children and keeps the board, so the loop spins until the budget runs out. "Failed" is unsolved, completes the input, and leaves a dead-end witness; no solved completion of a 9×9 input exists. "Continue" strictly reduces the empty count and keeps every solved completion. "Branch" keeps the board and describes the children. Whenever the loop does not stop, the step's board is the board the reference pass `PassFrom` produces. The step is "Failed" exactly when the pass reports "No solve", and "Branch" exactly when the pass changes nothing. |
| Iteration.PassStep | solver/solve_sudoku.go:38-95 | The second solved check never ends the loop. The pass fails (unsolved), makes progress, or stalls on the unchanged board and branches; a solved 9×9 board branches with no children. A stalled board with an empty cell of values 0..9 always has a cell to branch on. The step's board is the reference pass's board. The step is "Failed" exactly when the pass reports "No solve", and "Branch" exactly when the pass leaves the board unchanged. |
| Iteration.SolveIterationRepaired | solver/solve_sudoku.go:23-58 | The same iteration with the repaired check. On a 9×9 board it stops at once exactly when the board is solved. A "Finished" solved result passes the repaired check, completes the input, and is solved on 9×9 boards. A "Failed" result on a 9×9 board is unsolved. Unless the loop stops on the input, the step's board is the reference pass's board and "Failed" means the pass reported "No solve". Whenever the loop goes on, it branches exactly when the pass changed nothing. |
| Iteration.PassStepRepaired | solver/solve_sudoku.go:38-95 | With the repaired check, a pass that completes the board ends the loop reported solved. A "No solve" return on a 9×9 board reports it unsolved. The step's board is the reference pass's board. "Failed" happens exactly on "No solve", "Finished" exactly when the pass completes a board the repaired check accepts, and "Branch" exactly when the pass changes nothing. |
| Iteration.StallOrContinue | solver/solve_sudoku.go:57-58 | The progress test. The loop carries on exactly when the pass reduced the empty count, and branches exactly when the pass left the board unchanged. Because a pass only fills cells, "the count did not decrease" and "nothing changed" are the same thing. |
| Iteration.StalledStep | solver/solve_sudoku.go:58-95 | The stalled arm chooses the most constrained cell and produces exactly one child per eligible value. |

## Left out

- main.go and `Sudoku.Print`: console output only.
- The file part of `CreateBoard` (`os.Open`, `bufio.Scanner`, `log.Fatal`,
  the scanner's line-length limit): the model takes the file's lines as a
  parameter.
- Goroutines, the `WaitGroup` and the channel of the branching step: the
  children's reports are a parameter of `Collect`, in arrival order.
  Goroutines left blocked on the channel after the collecting loop's `break`
  are not modelled either.
- Grid.MakeCopy: the promise that the copy shares no storage with the input
  has no counterpart on immutable values, so the contract states only that
  the copy equals the input cell for cell.
- The goroutine-plus-channel wrappers inside `MakeCopy` and `WriteToCell`:
  they only run the copy or write on another goroutine and wait for it.
- The atomic `globalCounter` shared by all invocations: it is passed into and
  out of `Iteration.SolveIteration`. Increments by concurrent children are
  not modelled.
- The recursive `SolveSudoku` call of each child and the termination of the
  whole solver: each child's result is an arbitrary `Report`.
- Invalid UTF-8 and Go's byte-level handling of strings: lines are sequences
  of characters, and white space is the set `unicode.IsSpace` accepts.

Where the code and its documented intent differ, the model follows the code:

- When every child reports "No solve", the collecting loop ends and the outer
  loop carries on with the same stalled board. The failure is not reported
  upward.
- A decisive report that is neither solved nor "No solve" restarts from a copy
  of the invocation's input board (solve_sudoku.go:124). The board of the
  current branching round is not used.
- `UpdateCellWithValidNum` reports -1 only when exactly nine keys are
  ineligible. A board value outside 0..9 adds a tenth key, and the dead end
  then reads as 0 (Candidates.StrayValueMasksDeadEnd).
- `Iteration.SolveIteration` calls the solved check as written at lines 24,
  45, 52 and 130. A solved 9×9 board therefore never ends the loop: it stalls,
  and with no branch cell no child runs, so the loop repeats until the budget
  is used up and returns "Done" unsolved. `Iteration.SolveIterationRepaired`
  is the same iteration with the repaired check.

## Findings

| source | as written | input that shows it | evidently intended | confidence | as-written member | corrected member |
|---|---|---|---|---|---|---|
| solver/util.go:33-51 | `mapValidNum` ignores its receiver row and marks every digit eligible, so `isRowFilledWithNum` is false for every row | the row 1,2,3,4,5,6,7,8,9 is reported as not filled | the row holds every digit 1..9 | not executed | RepairedCheck.IsRowFilledWithNumMisses | RepairedCheck.IsRowFilledWithNumCorrected |
| solver/util.go:178-221 | `ValidateSudoku` calls the broken row test first, so it returns true only for a board with no rows | any correctly solved 9×9 board is rejected | true exactly for solved 9×9 boards | not executed | Validate.ValidateSudokuRejectsSolvedBoards | RepairedCheck.ValidateSudokuCorrectedMeansSolved |
| solver/solve_sudoku.go:23-58 | the loop relies on the broken solved check, so a solved board never breaks it | a solved 9×9 board stalls and branches with no children until the budget runs out, then returns unsolved | break at line 24 and report the board solved | not executed | Iteration.SolveIteration | Iteration.SolveIterationRepaired |

=== FILE: boxes.dfy ===
/** The 3×3 box arithmetic of the solver: the box number of a cell and the bounds of its box. */
module Boxes {

  /** Inclusive row and column bounds of a rectangle of cells. */
  datatype Bounds = Bounds(lowerRow: int, upperRow: int, lowerCol: int, upperCol: int) {
    predicate Contains(r: int, c: int) {
      lowerRow <= r <= upperRow && lowerCol <= c <= upperCol
    }
  }

  /** The two cells lie in the same 3×3 box of a 9×9 board. */
  predicate SameBox(r: int, c: int, i: int, j: int) {
    r / 3 == i / 3 && c / 3 == j / 3
  }

  /**
   * Box number of a cell, boxes counted row by row from the top left.
   * Written as the Go code's nested switch: a row or column index of 9 or
   * more falls through every case and leaves the number at 0.
   */
  function GetSquareBoxIndex(rowIndex: int, colIndex: int): (index: int)
    ensures 0 <= index <= 8
    ensures 0 <= rowIndex <= 8 && 0 <= colIndex <= 8 ==> index == (rowIndex / 3) * 3 + colIndex / 3
    ensures rowIndex >= 9 || colIndex >= 9 ==> index == 0
  {
    if rowIndex < 3 then
      if colIndex < 3 then 0 else if colIndex < 6 then 1 else if colIndex < 9 then 2 else 0
    else if rowIndex < 6 then
      if colIndex < 3 then 3 else if colIndex < 6 then 4 else if colIndex < 9 then 5 else 0
    else if rowIndex < 9 then
      if colIndex < 3 then 6 else if colIndex < 6 then 7 else if colIndex < 9 then 8 else 0
    else
      0
  }

  /**
   * Bounds of the 3×3 box holding (rowIndex, columnIndex), tried column band
   * by column band as the Go code does. A position past index 8 on either axis
   * matches no case and gets the all-zero bounds.
   */
  function SquareBoxes(rowIndex: int, columnIndex: int): (b: Bounds)
    ensures 0 <= rowIndex <= 8 && 0 <= columnIndex <= 8 ==>
              && b.lowerRow == 3 * (rowIndex / 3) && b.upperRow == b.lowerRow + 2
              && b.lowerCol == 3 * (columnIndex / 3) && b.upperCol == b.lowerCol + 2
              && b.Contains(rowIndex, columnIndex)
    ensures rowIndex > 8 || columnIndex > 8 ==> b == Bounds(0, 0, 0, 0)
  {
    if rowIndex <= 2 && columnIndex <= 2 then Bounds(0, 2, 0, 2)
    else if rowIndex <= 5 && columnIndex <= 2 then Bounds(3, 5, 0, 2)
    else if rowIndex <= 8 && columnIndex <= 2 then Bounds(6, 8, 0, 2)
    else if rowIndex <= 2 && columnIndex <= 5 then Bounds(0, 2, 3, 5)
    else if rowIndex <= 5 && columnIndex <= 5 then Bounds(3, 5, 3, 5)
    else if rowIndex <= 8 && columnIndex <= 5 then Bounds(6, 8, 3, 5)
    else if rowIndex <= 2 && columnIndex <= 8 then Bounds(0, 2, 6, 8)
    else if rowIndex <= 5 && columnIndex <= 8 then Bounds(3, 5, 6, 8)
    else if rowIndex <= 8 && columnIndex <= 8 then Bounds(6, 8, 6, 8)
    else Bounds(0, 0, 0, 0)
  }

  /**
   * On a 9×9 board the two box computations agree: a cell lies inside the
   * bounds returned for (r, c) exactly when it has the same box number, and
   * exactly when it is in the same 3×3 box.
   */
  lemma SquareBoxesAgreeWithIndex(r: int, c: int, i: int, j: int)
    requires 0 <= r <= 8 && 0 <= c <= 8 && 0 <= i <= 8 && 0 <= j <= 8
    ensures SquareBoxes(r, c).Contains(i, j) <==> GetSquareBoxIndex(r, c) == GetSquareBoxIndex(i, j)
    ensures SquareBoxes(r, c).Contains(i, j) <==> SameBox(r, c, i, j)
  {
  }
}

=== FILE: branching.dfy ===
/**
 * The rest of one iteration of the solver loop: the stall test, the choice
 * of the most constrained empty cell, the child boards for its candidate
 * values, and the rule by which the children's reports are taken up.
 */
module Branching {
  import opened SudokuTypes
  import opened Grid
  import opened Candidates
  import opened Validate
  import opened Propagation

  /** Number of values still eligible at (r, c): the length of ListValidNumbers' result for that cell. */
  ghost function CandidateCount(s: Sudoku, r: int, c: int): int
    requires 0 <= r < |s|
  {
    |Eligible(GetValidNumMap(s, r, c).validNumbers)|
  }

  /** An empty cell with between two and nine eligible values: one the loop may branch on. */
  ghost predicate Branchable(s: Sudoku, r: int, c: int) {
    InBoard(s, r, c) && s[r][c] == 0 && 2 <= CandidateCount(s, r, c) <= 9
  }

  /**
   * (r, c) is branchable, no branchable cell has fewer eligible values, and
   * no branchable cell with as many comes after it in row-major order.
   */
  ghost predicate MostConstrained(s: Sudoku, r: int, c: int) {
    && Branchable(s, r, c)
    && forall i, j | Branchable(s, i, j) ::
         && CandidateCount(s, r, c) <= CandidateCount(s, i, j)
         && (CandidateCount(s, i, j) == CandidateCount(s, r, c) ==> !Before(r, c, i, j))
  }

  /** At most one cell is the most constrained one. */
  lemma MostConstrainedUnique(s: Sudoku, r: int, c: int, i: int, j: int)
    requires MostConstrained(s, r, c) && MostConstrained(s, i, j)
    ensures r == i && c == j
  {
    assert CandidateCount(s, r, c) == CandidateCount(s, i, j);
  }

  /** Empty cells of s at positions before (r, c) in row-major order. */
  ghost predicate SeenEmpty(s: Sudoku, i: int, j: int, r: int, c: int) {
    InBoard(s, i, j) && Before(i, j, r, c) && s[i][j] == 0
  }

  /** `cell` is the map GetValidNumMap gives for an empty cell before (r, c) that has n eligible values. */
  ghost predicate FiledCell(s: Sudoku, cell: Cell, n: int, r: int, c: int) {
    && SeenEmpty(s, cell.rowIndex, cell.colIndex, r, c)
    && cell == GetValidNumMap(s, cell.rowIndex, cell.colIndex)
    && CandidateCount(s, cell.rowIndex, cell.colIndex) == n
  }

  /**
   * The map from candidate counts to cells, built over the empty cells
   * before (r, c): each count seen so far is a key, and its cell is the
   * last empty cell seen with that count.
   */
  ghost predicate Filed(s: Sudoku, potential: map<int, Cell>, r: int, c: int) {
    && (forall n | n in potential :: FiledCell(s, potential[n], n, r, c))
    && (forall n, i, j | n in potential && SeenEmpty(s, i, j, r, c) && CandidateCount(s, i, j) == n ::
          !Before(potential[n].rowIndex, potential[n].colIndex, i, j))
    && (forall i, j | SeenEmpty(s, i, j, r, c) :: CandidateCount(s, i, j) in potential)
  }

  /** Filing the cell at (r, c), or skipping it when it is filled, moves the walk one cell on. */
  lemma FileStep(s: Sudoku, potential: map<int, Cell>, r: int, c: int)
    requires InBoard(s, r, c) && Filed(s, potential, r, c)
    ensures s[r][c] != 0 ==> Filed(s, potential, r, c + 1)
    ensures s[r][c] == 0 ==> Filed(s, potential[CandidateCount(s, r, c) := GetValidNumMap(s, r, c)], r, c + 1)
  {
    forall i, j ensures SeenEmpty(s, i, j, r, c + 1) <==> SeenEmpty(s, i, j, r, c) || (i == r && j == c && s[r][c] == 0) {
    }
  }

  /** The end of a row is the start of the next. */
  lemma FileRowEnd(s: Sudoku, potential: map<int, Cell>, r: int)
    requires 0 <= r < |s| && Filed(s, potential, r, |s[r]|)
    ensures Filed(s, potential, r + 1, 0)
  {
    forall i, j ensures SeenEmpty(s, i, j, r + 1, 0) <==> SeenEmpty(s, i, j, r, |s[r]|) {
    }
  }

  /** The inner loop of the filing pass over one row. */
  method FileRow(s: Sudoku, potential: map<int, Cell>, rowIndex: int) returns (filed: map<int, Cell>)
    requires 0 <= rowIndex < |s| && Filed(s, potential, rowIndex, 0)
    ensures Filed(s, filed, rowIndex + 1, 0)
  {
    filed := potential;
    var colIndex := 0;
    while colIndex < |s[rowIndex]|
      invariant 0 <= colIndex <= |s[rowIndex]|
      invariant Filed(s, filed, rowIndex, colIndex)
    {
      FileStep(s, filed, rowIndex, colIndex);
      if s[rowIndex][colIndex] == 0 {
        var validCellAgain := GetValidNumMap(s, rowIndex, colIndex);
        var valNumArray := ListValidNumbers(validCellAgain.validNumbers);
        var lengthOfValNumArray := |valNumArray|;
        filed := filed[lengthOfValNumArray := validCellAgain];
      }
      colIndex := colIndex + 1;
    }
    FileRowEnd(s, filed, rowIndex);
  }

  /** The filing pass over the whole board: the Go code's mapOfPotentialCells. */
  method FileBoard(s: Sudoku) returns (potential: map<int, Cell>)
    ensures Filed(s, potential, |s|, 0)
  {
    potential := map[];
    var rowIndex := 0;
    while rowIndex < |s|
      invariant 0 <= rowIndex <= |s|
      invariant Filed(s, potential, rowIndex, 0)
    {
      potential := FileRow(s, potential, rowIndex);
      rowIndex := rowIndex + 1;
    }
  }

  /** After the whole board is filed, the first key from 2 to 9 names the most constrained cell. */
  lemma FiledChoice(s: Sudoku, potential: map<int, Cell>, n: int)
    requires Filed(s, potential, |s|, 0)
    requires 2 <= n <= 9 && n in potential && forall m | 2 <= m < n :: m !in potential
    ensures MostConstrained(s, potential[n].rowIndex, potential[n].colIndex)
    ensures potential[n] == GetValidNumMap(s, potential[n].rowIndex, potential[n].colIndex)
    ensures !forall r, c :: !Branchable(s, r, c)
  {
    var p := potential[n];
    assert FiledCell(s, p, n, |s|, 0);
    forall i, j | Branchable(s, i, j)
      ensures CandidateCount(s, p.rowIndex, p.colIndex) <= CandidateCount(s, i, j)
      ensures CandidateCount(s, i, j) == CandidateCount(s, p.rowIndex, p.colIndex) ==> !Before(p.rowIndex, p.colIndex, i, j)
    {
      assert SeenEmpty(s, i, j, |s|, 0);
    }
  }

  /** After the whole board is filed with no key from 2 to 9, no cell is branchable. */
  lemma FiledNone(s: Sudoku, potential: map<int, Cell>)
    requires Filed(s, potential, |s|, 0)
    requires forall m | 2 <= m <= 9 :: m !in potential
    ensures forall r, c :: !Branchable(s, r, c)
  {
    forall r, c | Branchable(s, r, c) ensures false {
      assert SeenEmpty(s, r, c, |s|, 0);
    }
  }

  /**
   * On a 9×9 board of values 0..9 the chosen cell is a Cell as the type
   * documents it: a position on the board and a map with exactly the keys 1..9.
   */
  lemma BranchCellValid(s: Sudoku, r: int, c: int)
    requires IsGrid(s) && InDomain(s) && MostConstrained(s, r, c)
    ensures ValidCell(GetValidNumMap(s, r, c))
  {
    GetValidNumMapKeys(s, r, c);
  }

  /**
   * The cell the loop branches on. Every empty cell is filed under its
   * number of eligible values, a later cell replacing an earlier one with
   * the same number; the first number from 2 to 9 that has a cell wins. With
   * no such cell the result is the zero Cell, whose map has no keys.
   */
  method SelectBranchCell(s: Sudoku) returns (cell: Cell)
    ensures (exists r, c :: Branchable(s, r, c)) ==>
              && MostConstrained(s, cell.rowIndex, cell.colIndex)
              && cell == GetValidNumMap(s, cell.rowIndex, cell.colIndex)
    ensures (forall r, c :: !Branchable(s, r, c)) ==> cell == NoCell
  {
    var potential := FileBoard(s);
    var potentialValue := FirstFiledCount(potential);
    if potentialValue <= 9 {
      cell := potential[potentialValue];
      FiledChoice(s, potential, potentialValue);
    } else {
      cell := NoCell;
      FiledNone(s, potential);
    }
  }

  /** The scan over 2..9 for the first count that has a cell filed under it; 10 when none has. */
  method FirstFiledCount(potential: map<int, Cell>) returns (potentialValue: int)
    ensures 2 <= potentialValue <= 10
    ensures potentialValue <= 9 ==> potentialValue in potential
    ensures forall m | 2 <= m < potentialValue :: m !in potential
  {
    potentialValue := 2;
    while potentialValue <= 9
      invariant 2 <= potentialValue <= 10
      invariant forall m | 2 <= m < potentialValue :: m !in potential
    {
      if potentialValue in potential {
        return;
      }
      potentialValue := potentialValue + 1;
    }
  }

  /** A cell never has more than nine eligible values: only digits are ever eligible. */
  lemma CandidateCountAtMostNine(s: Sudoku, r: int, c: int)
    requires 0 <= r < |s|
    ensures CandidateCount(s, r, c) <= 9
  {
    var eligible := Eligible(GetValidNumMap(s, r, c).validNumbers);
    assert eligible <= Digits;
    assert Digits == eligible + (Digits - eligible);
    DigitsCount();
  }

  /**
   * After a pass that stalled on a board of empty cells and digits, some
   * cell is branchable as soon as one cell is empty.
   */
  lemma StalledBoardBranches(s: Sudoku, r: int, c: int)
    requires InBoard(s, r, c) && s[r][c] == 0
    requires forall i, j | InBoard(s, i, j) && s[i][j] == 0 :: CandidateCount(s, i, j) >= 2
    ensures Branchable(s, r, c)
  {
    CandidateCountAtMostNine(s, r, c);
  }

  /**
   * The child boards of a branching step: one per value ListValidNumbers
   * lists for the selected cell, each a copy of the board with that value
   * written into the cell.
   */
  method BranchChildren(s: Sudoku, cell: Cell) returns (values: seq<int>, children: seq<Sudoku>)
    requires Eligible(cell.validNumbers) != {} ==> InBoard(s, cell.rowIndex, cell.colIndex)
    ensures forall v :: v in values <==> v in Eligible(cell.validNumbers)
    ensures NoRepeats(values) && |values| == |Eligible(cell.validNumbers)|
    ensures |children| == |values|
    ensures forall k | 0 <= k < |values| ::
              InBoard(s, cell.rowIndex, cell.colIndex) &&
              children[k] == WriteToCell(s, cell.rowIndex, cell.colIndex, values[k])
  {
    values := ListValidNumbers(cell.validNumbers);
    children := [];
    var k := 0;
    while k < |values|
      invariant 0 <= k <= |values| && |children| == k
      invariant forall i | 0 <= i < k ::
                  InBoard(s, cell.rowIndex, cell.colIndex) &&
                  children[i] == WriteToCell(s, cell.rowIndex, cell.colIndex, values[i])
    {
      assert values[k] in values;
      var sudokuCopy := MakeCopy(s);
      sudokuCopy := WriteToCell(sudokuCopy, cell.rowIndex, cell.colIndex, values[k]);
      children := children + [sudokuCopy];
      k := k + 1;
    }
  }

  /**
   * Branching loses no solution and duplicates none: a solution that extends
   * the board extends the child for the value it puts in the branched cell,
   * and no other child.
   */
  lemma ChildrenCoverSolutions(s: Sudoku, r: int, c: int, values: seq<int>, t: Sudoku)
    requires IsGrid(s) && 0 <= r < 9 && 0 <= c < 9 && s[r][c] == 0
    requires forall v :: v in values <==> v in Eligible(GetValidNumMap(s, r, c).validNumbers)
    requires IntendedSolved(t) && Extends(s, t)
    ensures exists k | 0 <= k < |values| :: Extends(WriteToCell(s, r, c, values[k]), t)
    ensures forall k | 0 <= k < |values| :: Extends(WriteToCell(s, r, c, values[k]), t) ==> values[k] == t[r][c]
  {
    SolutionValueEligible(s, r, c, t);
    var k :| 0 <= k < |values| && values[k] == t[r][c];
    WriteExtends(s, r, c, t[r][c], t);
    forall k | 0 <= k < |values| && Extends(WriteToCell(s, r, c, values[k]), t) ensures values[k] == t[r][c] {
      assert values[k] in values;
      WrittenValueKept(s, r, c, values[k], t);
    }
  }

  /** A board that extends a board holding a non-zero value keeps that value. */
  lemma WrittenValueKept(s: Sudoku, r: int, c: int, v: int, t: Sudoku)
    requires InBoard(s, r, c) && v != 0
    requires Extends(WriteToCell(s, r, c, v), t)
    ensures t[r][c] == v
  {
    assert InBoard(WriteToCell(s, r, c, v), r, c);
  }

  /** On a 9×9 board without conflicts every child is free of conflicts too. */
  lemma ChildrenKeepNoConflicts(s: Sudoku, r: int, c: int, values: seq<int>)
    requires IsGrid(s) && NoConflicts(s) && 0 <= r < 9 && 0 <= c < 9
    requires forall v | v in values :: v in Eligible(GetValidNumMap(s, r, c).validNumbers)
    ensures forall k | 0 <= k < |values| :: NoConflicts(WriteToCell(s, r, c, values[k]))
  {
    CandidatesOnGrid(s, r, c);
    forall k | 0 <= k < |values| ensures NoConflicts(WriteToCell(s, r, c, values[k])) {
      WriteCandidateKeepsNoConflicts(s, r, c, values[k]);
    }
  }

  /** What one child sends back: its board, its solved flag, and whether its error was "No solve". */
  datatype Report = Report(potentialSudoku: Sudoku, solved: bool, noSolve: bool)

  /** How the collecting loop ends: it adopts a solved child's board, restarts from the input board, or carries on. */
  datatype Collected = Adopt(board: Sudoku) | Restart | Carry

  /** A report that ends the collecting loop: a solved one, or an unsolved one whose error is not "No solve". */
  predicate Decisive(a: Report) {
    a.solved || !a.noSolve
  }

  /** Report k is the first decisive one to arrive. */
  predicate FirstDecisive(arrivals: seq<Report>, k: int) {
    && 0 <= k < |arrivals|
    && Decisive(arrivals[k])
    && forall j | 0 <= j < k :: !Decisive(arrivals[j])
  }

  /**
   * The collecting loop over the reports in the order they arrive: the
   * first solved report is returned as it is, the first unsolved report
   * whose error is not "No solve" sends the loop back to the input board,
   * and "No solve" reports are passed over.
   */
  function Collect(arrivals: seq<Report>): (c: Collected)
    ensures c == Carry <==> forall k | 0 <= k < |arrivals| :: !Decisive(arrivals[k])
    ensures c != Carry ==>
              exists k | FirstDecisive(arrivals, k) ::
                c == if arrivals[k].solved then Adopt(arrivals[k].potentialSudoku) else Restart
  {
    if |arrivals| == 0 then Carry
    else if arrivals[0].solved then
      assert FirstDecisive(arrivals, 0);
      Adopt(arrivals[0].potentialSudoku)
    else if !arrivals[0].noSolve then
      assert FirstDecisive(arrivals, 0);
      Restart
    else
      var rest := Collect(arrivals[1..]);
      assert forall k | 1 <= k < |arrivals| :: arrivals[k] == arrivals[1..][k - 1];
      assert rest != Carry ==> exists k | FirstDecisive(arrivals[1..], k) :: FirstDecisive(arrivals, k + 1);
      rest
  }

  /** The collecting loop adopts a board only from a child that reported it solved. */
  lemma CollectAdoptsOnlySolved(arrivals: seq<Report>)
    requires Collect(arrivals).Adopt?
    ensures exists k | 0 <= k < |arrivals| :: arrivals[k].solved && arrivals[k].potentialSudoku == Collect(arrivals).board
  {
    var k :| FirstDecisive(arrivals, k) &&
             Collect(arrivals) == if arrivals[k].solved then Adopt(arrivals[k].potentialSudoku) else Restart;
  }

  /** The order in which the children report decides the outcome. */
  lemma CollectDependsOnArrivalOrder(b: Sudoku, solution: Sudoku)
    ensures var done := Report(b, false, false);
            var solved := Report(solution, true, false);
            Collect([done, solved]) == Restart && Collect([solved, done]) == Adopt(solution)
  {
  }
}

=== FILE: candidates.dfy ===
/**
 * Candidate logic: the eligibility map of a cell, the single-candidate
 * update and the listing of eligible values.
 */
module Candidates {
  import opened SudokuTypes
  import opened Boxes
  import opened Grid

  /** The map with every key i..9 marked eligible, built one key at a time. */
  function FillEligible(i: int): (m: ValidNumbers)
    requires 1 <= i <= 10
    ensures forall k :: k in m <==> i <= k <= 9
    ensures forall k | k in m :: m[k]
    decreases 10 - i
  {
    if i == 10 then map[] else FillEligible(i + 1)[i := true]
  }

  /** The starting map of every eligibility computation: 1..9, all eligible. */
  function AllEligible(): (m: ValidNumbers)
    ensures WellFormedValidNumbers(m)
    ensures Eligible(m) == Digits && Ineligible(m) == {}
  {
    FillEligible(1)
  }

  /**
   * Marks every non-zero value of `vals` ineligible, in order. A value that
   * is not yet a key (say 12 or -3) becomes a new key mapped to false.
   */
  function Eliminate(m: ValidNumbers, vals: seq<int>): (m': ValidNumbers)
    ensures forall k :: k in m' <==> k in m || (k != 0 && k in vals)
    ensures forall k | k in m' :: m'[k] <==> k in m && m[k] && (k == 0 || k !in vals)
    decreases |vals|
  {
    if |vals| == 0 then m
    else
      assert vals == [vals[0]] + vals[1..];
      Eliminate(if vals[0] != 0 then m[vals[0] := false] else m, vals[1..])
  }

  /**
   * `v` occurs in row r, in column c (of every row long enough), or inside
   * the box bounds the Go code computes for (r, c).
   */
  ghost predicate SeenNear(s: Sudoku, r: int, c: int, v: int)
    requires 0 <= r < |s|
  {
    || (exists j | 0 <= j < |s[r]| :: s[r][j] == v)
    || (exists i | 0 <= i < |s| :: InBoard(s, i, c) && s[i][c] == v)
    || (exists i, j | InBoard(s, i, j) :: SquareBoxes(r, c).Contains(i, j) && s[i][j] == v)
  }

  /**
   * The eligibility map of cell (rowIndex, colIndex): start from 1..9 all
   * eligible and mark false every non-zero value of the row, of the column
   * and of the box. The cell's own value is not excluded from the scan.
   */
  function GetValidNumMap(s: Sudoku, rowIndex: int, colIndex: int): (cell: Cell)
    requires 0 <= rowIndex < |s|
    ensures cell.rowIndex == rowIndex && cell.colIndex == colIndex
    ensures forall k :: k in cell.validNumbers <==> IsDigit(k) || (k != 0 && SeenNear(s, rowIndex, colIndex, k))
    ensures forall k | k in cell.validNumbers ::
              cell.validNumbers[k] <==> IsDigit(k) && !SeenNear(s, rowIndex, colIndex, k)
  {
    var row := s[rowIndex];
    var column := ColumnOf(s, colIndex);
    var squareBox := BoxOf(s, SquareBoxes(rowIndex, colIndex));
    var valMap := Eliminate(Eliminate(Eliminate(AllEligible(), row), column), squareBox);
    Cell(rowIndex, colIndex, valMap)
  }

  /**
   * The map keeps exactly the keys 1..9 precisely when every non-zero value
   * near the cell is a digit; in particular on every board of values 0..9.
   */
  lemma GetValidNumMapKeys(s: Sudoku, r: int, c: int)
    requires 0 <= r < |s|
    ensures WellFormedValidNumbers(GetValidNumMap(s, r, c).validNumbers) <==>
              forall v | v != 0 && SeenNear(s, r, c, v) :: IsDigit(v)
    ensures InDomain(s) ==> WellFormedValidNumbers(GetValidNumMap(s, r, c).validNumbers)
  {
    var m := GetValidNumMap(s, r, c).validNumbers;
    if InDomain(s) {
      forall v | v != 0 && SeenNear(s, r, c, v) ensures IsDigit(v) {
      }
    }
    if forall v | v != 0 && SeenNear(s, r, c, v) :: IsDigit(v) {
      assert m.Keys == Digits;
    }
    if m.Keys == Digits {
      forall v | v != 0 && SeenNear(s, r, c, v) ensures IsDigit(v) {
        assert v in m.Keys;
      }
    }
  }

  /**
   * On a 9×9 board a value is eligible for (r, c) exactly when it is a digit
   * held by no cell of the same row, column or 3×3 box.
   */
  lemma CandidatesOnGrid(s: Sudoku, r: int, c: int)
    requires IsGrid(s) && 0 <= r < 9 && 0 <= c < 9
    ensures forall v :: v in Eligible(GetValidNumMap(s, r, c).validNumbers) <==> Candidate(s, r, c, v)
  {
    var m := GetValidNumMap(s, r, c).validNumbers;
    forall v ensures v in Eligible(m) <==> Candidate(s, r, c, v) {
      if v in Eligible(m) {
        forall i, j | 0 <= i < 9 && 0 <= j < 9 && SameUnit(r, c, i, j) ensures s[i][j] != v {
          SquareBoxesAgreeWithIndex(r, c, i, j);
          if i == r {
            assert InBoard(s, r, j);
          } else if j == c {
            assert InBoard(s, i, c);
          } else {
            assert InBoard(s, i, j) && SquareBoxes(r, c).Contains(i, j);
          }
        }
      }
      if Candidate(s, r, c, v) {
        forall j | 0 <= j < |s[r]| ensures s[r][j] != v {
          assert SameUnit(r, c, r, j);
        }
        forall i | 0 <= i < |s| && InBoard(s, i, c) ensures s[i][c] != v {
          assert SameUnit(r, c, i, c);
        }
        forall i, j | InBoard(s, i, j) && SquareBoxes(r, c).Contains(i, j) ensures s[i][j] != v {
          SquareBoxesAgreeWithIndex(r, c, i, j);
        }
        assert !SeenNear(s, r, c, v);
      }
    }
  }

  /** Whether UpdateCellWithValidNum writes: exactly one eligible key, a digit, and not nine ineligible keys. */
  predicate WritesCell(m: ValidNumbers) {
    |Ineligible(m)| != 9 && |Eligible(m)| == 1 && Eligible(m) <= Digits
  }

  /**
   * The value UpdateCellWithValidNum reports for an eligibility map, stated
   * without reference to the order in which the map is visited.
   */
  ghost function UpdateOutcome(m: ValidNumbers): int {
    var eligible := Eligible(m);
    if |Ineligible(m)| == 9 then -1
    else if |eligible| == 1 then
      assert eligible != {};
      assert exists k :: k in eligible by {
        if forall k :: k !in eligible {
          assert false;
        }
      }
      var k :| k in eligible; k
    else 0
  }

  /**
   * What the outcome says about the map: -1 whenever nine keys are
   * ineligible, a digit only as the one eligible key, and on a well-formed
   * map -1, a digit or 0 according as none, one or several keys are eligible.
   */
  lemma OutcomeFacts(m: ValidNumbers)
    ensures |Ineligible(m)| == 9 ==> UpdateOutcome(m) == -1
    ensures IsDigit(UpdateOutcome(m)) ==> Eligible(m) == {UpdateOutcome(m)}
    ensures Eligible(m) <= Digits ==> (IsDigit(UpdateOutcome(m)) <==> WritesCell(m))
    ensures Eligible(m) <= Digits ==> (UpdateOutcome(m) == -1 <==> |Ineligible(m)| == 9)
    ensures WellFormedValidNumbers(m) ==>
              && (UpdateOutcome(m) == -1 <==> Eligible(m) == {})
              && (IsDigit(UpdateOutcome(m)) <==> |Eligible(m)| == 1)
              && (UpdateOutcome(m) == 0 <==> |Eligible(m)| >= 2)
  {
    EligibleSplit(m);
    if |Ineligible(m)| != 9 && |Eligible(m)| == 1 {
      SingletonSet(Eligible(m), UpdateOutcome(m));
    }
    if WellFormedValidNumbers(m) {
      DigitsCount();
    }
  }

  /**
   * A cell none of whose digits is eligible is reported as a dead end (-1)
   * only when no other non-zero value is seen near it: a stray value such as
   * 12 adds a tenth ineligible key, and the report becomes 0 (no decision).
   */
  lemma StrayValueMasksDeadEnd(s: Sudoku, r: int, c: int, stray: int)
    requires 0 <= r < |s|
    requires forall d | IsDigit(d) :: SeenNear(s, r, c, d)
    requires stray != 0 && !IsDigit(stray) && SeenNear(s, r, c, stray)
    ensures Eligible(GetValidNumMap(s, r, c).validNumbers) == {}
    ensures UpdateOutcome(GetValidNumMap(s, r, c).validNumbers) == 0
  {
    var m := GetValidNumMap(s, r, c).validNumbers;
    SeenIneligible(s, r, c);
    assert Eligible(m) == {};
    TenIneligibleUndecided(m, stray);
  }

  /**
   * A map with no eligible key but with every digit and one more value
   * ineligible has ten ineligible keys, so the outcome is 0 and not -1.
   */
  lemma TenIneligibleUndecided(m: ValidNumbers, stray: int)
    requires Eligible(m) == {}
    requires !IsDigit(stray) && Digits + {stray} <= Ineligible(m)
    ensures UpdateOutcome(m) == 0
  {
    var seen := Digits + {stray};
    var ineligible := Ineligible(m);
    DigitsCount();
    assert stray !in Digits;
    assert ineligible == seen + (ineligible - seen);
  }

  /** Every non-zero value seen near the cell is an ineligible key of its map. */
  lemma SeenIneligible(s: Sudoku, r: int, c: int)
    requires 0 <= r < |s|
    ensures forall k | k != 0 && SeenNear(s, r, c, k) :: k in Ineligible(GetValidNumMap(s, r, c).validNumbers)
  {
  }

  /**
   * Walks the map in an arbitrary order (Go randomises map iteration),
   * counting eligible and ineligible keys and remembering the last eligible
   * one; reports -1 when nine keys are ineligible, 0 when more than one key
   * is eligible, and otherwise the single eligible key, which it writes into
   * the cell when it is a digit.
   */
  method UpdateCellWithValidNum(s: Sudoku, v: Cell) returns (t: Sudoku, valNum: int)
    requires WritesCell(v.validNumbers) ==> InBoard(s, v.rowIndex, v.colIndex)
    ensures valNum == UpdateOutcome(v.validNumbers)
    ensures |Ineligible(v.validNumbers)| == 9 ==> valNum == -1
    ensures Eligible(v.validNumbers) <= Digits ==> (valNum == -1 <==> |Ineligible(v.validNumbers)| == 9)
    ensures valNum != -1 && |Eligible(v.validNumbers)| == 1 ==> Eligible(v.validNumbers) == {valNum}
    ensures valNum != -1 && |Eligible(v.validNumbers)| != 1 ==> valNum == 0
    ensures WellFormedValidNumbers(v.validNumbers) ==>
              && (valNum == -1 <==> Eligible(v.validNumbers) == {})
              && (valNum == 0 <==> |Eligible(v.validNumbers)| >= 2)
              && (IsDigit(valNum) <==> |Eligible(v.validNumbers)| == 1)
    ensures IsDigit(valNum) <==> WritesCell(v.validNumbers)
    ensures IsDigit(valNum) ==> InBoard(s, v.rowIndex, v.colIndex) &&
                                t == WriteToCell(s, v.rowIndex, v.colIndex, valNum)
    ensures !IsDigit(valNum) ==> t == s
  {
    var valMap := v.validNumbers;
    var validNumberCount, incorrectNumCount;
    validNumberCount, incorrectNumCount, valNum := CountEligible(valMap);

    if validNumberCount > 1 {
      valNum := 0;
    }
    if incorrectNumCount == 9 {
      valNum := -1;
    }

    EligibleSplit(valMap);
    if WellFormedValidNumbers(valMap) {
      DigitsCount();
    }
    if 1 <= valNum <= 9 {
      t := WriteToCell(s, v.rowIndex, v.colIndex, valNum);
    } else {
      t := s;
    }
  }

  /**
   * The counting loop of UpdateCellWithValidNum: the number of eligible and
   * of ineligible keys, and the eligible key visited last (0 if none).
   */
  method CountEligible(valMap: ValidNumbers) returns (validNumberCount: nat, incorrectNumCount: nat, valNum: int)
    ensures validNumberCount == |Eligible(valMap)| && incorrectNumCount == |Ineligible(valMap)|
    ensures validNumberCount == 0 ==> valNum == 0
    ensures validNumberCount >= 1 ==> valNum in Eligible(valMap)
    ensures validNumberCount == 1 ==> Eligible(valMap) == {valNum}
  {
    validNumberCount := 0;
    incorrectNumCount := 0;
    valNum := 0;
    var remaining := valMap.Keys;
    ghost var trues: set<int> := {};
    ghost var falses: set<int> := {};
    while remaining != {}
      invariant forall k | k in trues :: k in valMap && valMap[k] && k !in remaining
      invariant forall k | k in falses :: k in valMap && !valMap[k] && k !in remaining
      invariant forall k | k in valMap :: k in remaining || k in trues || k in falses
      invariant validNumberCount == |trues| && incorrectNumCount == |falses|
      invariant validNumberCount >= 1 ==> valNum in trues
      invariant validNumberCount == 0 ==> valNum == 0
      decreases remaining
    {
      if forall k :: k !in remaining {
        assert false;
      }
      var key :| key in remaining;
      if valMap[key] {
        validNumberCount := validNumberCount + 1;
        valNum := key;
        trues := trues + {key};
      } else {
        incorrectNumCount := incorrectNumCount + 1;
        falses := falses + {key};
      }
      remaining := remaining - {key};
    }
    Partition(valMap, trues, falses);
    if validNumberCount == 1 {
      SingletonSet(trues, valNum);
    }
  }

  /** Sets that split a map's keys by their value are its eligible and ineligible keys. */
  lemma Partition(m: ValidNumbers, trues: set<int>, falses: set<int>)
    requires forall k | k in trues :: k in m && m[k]
    requires forall k | k in falses :: k in m && !m[k]
    requires forall k | k in m :: k in trues || k in falses
    ensures trues == Eligible(m) && falses == Ineligible(m)
  {
    forall k ensures k in trues <==> k in Eligible(m) {
      if k in m && m[k] {
        assert k in trues || k in falses;
      }
    }
    forall k ensures k in falses <==> k in Ineligible(m) {
      if k in m && !m[k] {
        assert k in trues || k in falses;
      }
    }
  }

  lemma SingletonSet(S: set<int>, x: int)
    requires |S| == 1 && x in S
    ensures S == {x}
  {
    assert |S - {x}| == 0;
  }

  /**
   * The eligible keys of the map, each once, in an arbitrary order (Go map
   * iteration order is unspecified).
   */
  method ListValidNumbers(v: ValidNumbers) returns (valNumArray: seq<int>)
    ensures forall k :: k in valNumArray <==> k in Eligible(v)
    ensures NoRepeats(valNumArray)
    ensures |valNumArray| == |Eligible(v)|
  {
    valNumArray := [];
    var remaining := v.Keys;
    ghost var listed: set<int> := {};
    ghost var skipped: set<int> := {};
    while remaining != {}
      invariant forall k | k in listed :: k in v && v[k] && k !in remaining
      invariant forall k | k in skipped :: k in v && !v[k] && k !in remaining
      invariant forall k | k in v :: k in remaining || k in listed || k in skipped
      invariant forall k :: k in valNumArray <==> k in listed
      invariant NoRepeats(valNumArray)
      invariant |valNumArray| == |listed|
      decreases remaining
    {
      if forall k :: k !in remaining {
        assert false;
      }
      var key :| key in remaining;
      if v[key] {
        valNumArray := valNumArray + [key];
        listed := listed + {key};
      } else {
        skipped := skipped + {key};
      }
      remaining := remaining - {key};
    }
    Partition(v, listed, skipped);
  }
}

=== FILE: grid.dfy ===
/**
 * Board-level operations of the solver: reading a column or a box out of a
 * board, counting empty cells, copying a board and writing one cell.
 */
module Grid {
  import opened SudokuTypes
  import opened Boxes

  /**
   * The values of column `c`, top to bottom, taken from every row long
   * enough to have that column (the Go code appends `col` whenever the
   * running column index equals `c`).
   */
  function ColumnOf(s: Sudoku, c: int): (column: Row)
    ensures |column| <= |s|
    ensures forall v :: v in column <==> exists r | 0 <= r < |s| :: InBoard(s, r, c) && s[r][c] == v
    ensures (forall r | 0 <= r < |s| :: 0 <= c < |s[r]|) ==>
              |column| == |s| && forall r | 0 <= r < |s| && 0 <= c < |s[r]| :: column[r] == s[r][c]
  {
    if |s| == 0 then []
    else
      var init := s[..|s| - 1];
      var last := s[|s| - 1];
      assert forall r | 0 <= r < |init| :: init[r] == s[r];
      ColumnOf(init, c) + (if 0 <= c < |last| then [last[c]] else [])
  }

  /** The values of `row` whose column index lies within the column bounds of `b`, left to right. */
  function RowPart(row: Row, b: Bounds): (part: Row)
    ensures forall v :: v in part <==> exists j | 0 <= j < |row| :: b.lowerCol <= j <= b.upperCol && row[j] == v
  {
    if |row| == 0 then []
    else
      var init := row[..|row| - 1];
      assert forall j | 0 <= j < |init| :: init[j] == row[j];
      RowPart(init, b) + (if b.lowerCol <= |row| - 1 <= b.upperCol then [row[|row| - 1]] else [])
  }

  /** The values of every cell of the board inside `b`, in row-major order. */
  function BoxOf(s: Sudoku, b: Bounds): (box: Row)
    ensures forall v :: v in box <==>
              exists r, c | InBoard(s, r, c) :: b.Contains(r, c) && s[r][c] == v
  {
    if |s| == 0 then []
    else
      var init := s[..|s| - 1];
      var r := |s| - 1;
      assert forall i | 0 <= i < |init| :: init[i] == s[i];
      var box := BoxOf(init, b) + (if b.lowerRow <= r <= b.upperRow then RowPart(s[r], b) else []);
      assert forall v :: v in box ==> exists i, c | InBoard(s, i, c) :: b.Contains(i, c) && s[i][c] == v;
      assert forall v ::
          (exists i, c | InBoard(s, i, c) :: b.Contains(i, c) && s[i][c] == v) ==> v in box by {
        forall v, i, c | InBoard(s, i, c) && b.Contains(i, c) && s[i][c] == v
          ensures v in box
        {
          if i < r {
            assert InBoard(init, i, c);
          } else {
            assert v in RowPart(s[r], b);
          }
        }
      }
      box
  }

  /** Number of zeros in one row. */
  function RowZeros(row: Row): nat {
    multiset(row)[0]
  }

  /** Number of empty (zero) cells of the board, summed row by row. */
  function ZeroCount(s: Sudoku): nat {
    if |s| == 0 then 0 else ZeroCount(s[..|s| - 1]) + RowZeros(s[|s| - 1])
  }

  /** Number of cells of the board. */
  function CellCount(s: Sudoku): nat {
    if |s| == 0 then 0 else CellCount(s[..|s| - 1]) + |s[|s| - 1]|
  }

  /** There are no more empty cells than cells; on a 9×9 board at most 81. */
  lemma {:induction false} ZeroCountBound(s: Sudoku)
    ensures ZeroCount(s) <= CellCount(s)
    ensures IsGrid(s) ==> CellCount(s) == 81
  {
    if |s| > 0 {
      var init := s[..|s| - 1];
      ZeroCountBound(init);
      var row := s[|s| - 1];
      assert multiset(row)[0] <= |multiset(row)|;
      if IsGrid(s) {
        assert IsGrid(s) ==> CellCount(s) == 81 by {
          assert s == s[..9];
          assert s[..9] == s[..8] + [s[8]];
          assert s[..8] == s[..7] + [s[7]];
          assert s[..7] == s[..6] + [s[6]];
          assert s[..6] == s[..5] + [s[5]];
          assert s[..5] == s[..4] + [s[4]];
          assert s[..4] == s[..3] + [s[3]];
          assert s[..3] == s[..2] + [s[2]];
          assert s[..2] == s[..1] + [s[1]];
          assert s[..1] == [s[0]];
          assert CellCount(s[..1]) == 9;
          assert CellCount(s[..2]) == 18;
          assert CellCount(s[..3]) == 27;
          assert CellCount(s[..4]) == 36;
          assert CellCount(s[..5]) == 45;
          assert CellCount(s[..6]) == 54;
          assert CellCount(s[..7]) == 63;
          assert CellCount(s[..8]) == 72;
        }
      }
    }
  }

  /** The board has no empty cell exactly when its zero count is 0. */
  lemma {:induction false} ZeroCountZero(s: Sudoku)
    ensures ZeroCount(s) == 0 <==> forall r, c | InBoard(s, r, c) :: s[r][c] != 0
  {
    if |s| > 0 {
      var init := s[..|s| - 1];
      var row := s[|s| - 1];
      ZeroCountZero(init);
      assert forall r | 0 <= r < |init| :: init[r] == s[r];
      if ZeroCount(s) == 0 {
        forall r, c | InBoard(s, r, c) ensures s[r][c] != 0 {
          if r < |init| {
            assert InBoard(init, r, c);
          } else {
            assert row[c] in multiset(row);
          }
        }
      } else if RowZeros(row) > 0 {
        assert 0 in multiset(row);
        var c :| 0 <= c < |row| && row[c] == 0;
        assert InBoard(s, |s| - 1, c);
      } else {
        var r, c :| InBoard(init, r, c) && init[r][c] == 0;
        assert InBoard(s, r, c);
      }
    }
  }

  /**
   * The number of empty cells, counted with nested loops over the rows as the
   * Go code counts them.
   */
  method UnfilledCells(s: Sudoku) returns (unfilledCount: nat)
    ensures unfilledCount == ZeroCount(s)
    ensures unfilledCount == 0 <==> forall r, c | InBoard(s, r, c) :: s[r][c] != 0
    ensures IsGrid(s) ==> unfilledCount <= 81
  {
    unfilledCount := 0;
    var i := 0;
    while i < |s|
      invariant 0 <= i <= |s|
      invariant unfilledCount == ZeroCount(s[..i])
    {
      var row := s[i];
      var j := 0;
      var rowCount := 0;
      while j < |row|
        invariant 0 <= j <= |row|
        invariant rowCount == multiset(row[..j])[0]
      {
        assert row[..j + 1] == row[..j] + [row[j]];
        if row[j] == 0 {
          rowCount := rowCount + 1;
        }
        j := j + 1;
      }
      assert row[..j] == row;
      assert s[..i + 1][..i] == s[..i];
      unfilledCount := unfilledCount + rowCount;
      i := i + 1;
    }
    assert s[..i] == s;
    ZeroCountZero(s);
    ZeroCountBound(s);
  }

  /**
   * A deep copy: a fresh list of fresh rows built by appending every value.
   * Boards are values here, so sharing no storage with the input holds by
   * construction; the contract states that the copy agrees cell for cell.
   */
  method MakeCopy(s: Sudoku) returns (copy: Sudoku)
    ensures |copy| == |s|
    ensures forall r | 0 <= r < |s| :: |copy[r]| == |s[r]|
    ensures forall r, c | InBoard(s, r, c) :: copy[r][c] == s[r][c]
    ensures copy == s
  {
    copy := [];
    var i := 0;
    while i < |s|
      invariant 0 <= i <= |s|
      invariant copy == s[..i]
    {
      var row: Row := [];
      var j := 0;
      while j < |s[i]|
        invariant 0 <= j <= |s[i]|
        invariant row == s[i][..j]
      {
        row := row + [s[i][j]];
        j := j + 1;
      }
      assert row == s[i];
      copy := copy + [row];
      i := i + 1;
    }
    assert s[..i] == s;
  }

  /**
   * The board with cell (rowIndex, colIndex) set to `val`. The Go code indexes
   * the board directly, so the cell must exist.
   */
  function WriteToCell(s: Sudoku, rowIndex: int, colIndex: int, val: int): (t: Sudoku)
    requires InBoard(s, rowIndex, colIndex)
    ensures |t| == |s| && forall r | 0 <= r < |s| :: |t[r]| == |s[r]|
    ensures t[rowIndex][colIndex] == val
    ensures forall r, c | InBoard(s, r, c) && (r != rowIndex || c != colIndex) :: t[r][c] == s[r][c]
    ensures IsGrid(s) ==> IsGrid(t)
  {
    s[rowIndex := s[rowIndex][colIndex := val]]
  }

  /** `t` is `s` with some empty cells filled in and nothing else changed. */
  ghost predicate Extends(s: Sudoku, t: Sudoku) {
    && |t| == |s|
    && (forall r | 0 <= r < |s| :: |t[r]| == |s[r]|)
    && (forall r, c | InBoard(s, r, c) :: t[r][c] == s[r][c] || (s[r][c] == 0 && IsDigit(t[r][c])))
  }

  lemma ExtendsReflexive(s: Sudoku)
    ensures Extends(s, s)
  {
  }

  lemma ExtendsTransitive(s: Sudoku, t: Sudoku, u: Sudoku)
    requires Extends(s, t) && Extends(t, u)
    ensures Extends(s, u)
  {
  }

  /** Two boards that extend each other are equal. */
  lemma ExtendsAntisymmetric(s: Sudoku, t: Sudoku)
    requires Extends(s, t) && Extends(t, s)
    ensures s == t
  {
    forall r | 0 <= r < |s| ensures s[r] == t[r] {
      assert forall c | 0 <= c < |s[r]| :: InBoard(s, r, c);
    }
  }

  /** Writing a digit into an empty cell extends the board; writing the value a later board holds keeps it extended. */
  lemma WriteExtends(s: Sudoku, r: int, c: int, v: int, u: Sudoku)
    requires InBoard(s, r, c) && s[r][c] == 0 && IsDigit(v)
    ensures Extends(s, WriteToCell(s, r, c, v))
    ensures Extends(s, u) && u[r][c] == v ==> Extends(WriteToCell(s, r, c, v), u)
  {
  }

  /** Filling one empty cell with a digit removes exactly one empty cell. */
  lemma {:induction false} WriteEmptyCellCount(s: Sudoku, r: int, c: int, v: int)
    requires InBoard(s, r, c) && s[r][c] == 0 && v != 0
    ensures ZeroCount(WriteToCell(s, r, c, v)) == ZeroCount(s) - 1
  {
    var t := WriteToCell(s, r, c, v);
    var n := |s| - 1;
    if r == n {
      assert t[..n] == s[..n];
      assert s[n] == s[n][..c] + [0] + s[n][c + 1..];
      assert t[n] == s[n][..c] + [v] + s[n][c + 1..];
    } else {
      assert t[..n] == WriteToCell(s[..n], r, c, v);
      WriteEmptyCellCount(s[..n], r, c, v);
    }
  }

  /** Filling in empty cells never adds an empty cell, and removes one whenever anything changed. */
  lemma {:induction false} ExtendsCount(s: Sudoku, t: Sudoku)
    requires Extends(s, t)
    ensures ZeroCount(t) <= ZeroCount(s)
    ensures t != s ==> ZeroCount(t) < ZeroCount(s)
  {
    if |s| > 0 {
      var n := |s| - 1;
      assert Extends(s[..n], t[..n]);
      ExtendsCount(s[..n], t[..n]);
      RowExtendsCount(s[n], t[n]);
      if t != s && t[..n] == s[..n] {
        assert t == t[..n] + [t[n]];
        assert s == s[..n] + [s[n]];
      }
    }
  }

  lemma {:induction false} RowExtendsCount(a: Row, b: Row)
    requires |a| == |b|
    requires forall c | 0 <= c < |a| :: b[c] == a[c] || (a[c] == 0 && b[c] != 0)
    ensures RowZeros(b) <= RowZeros(a)
    ensures b != a ==> RowZeros(b) < RowZeros(a)
  {
    if |a| > 0 {
      var n := |a| - 1;
      RowExtendsCount(a[..n], b[..n]);
      assert a == a[..n] + [a[n]];
      assert b == b[..n] + [b[n]];
      if b != a && b[..n] == a[..n] {
        assert b[n] != a[n];
      }
    }
  }

  /** Two cells of a 9×9 board share a row, a column or a 3×3 box. */
  predicate SameUnit(r: int, c: int, i: int, j: int) {
    r == i || c == j || SameBox(r, c, i, j)
  }

  /** No two distinct cells of a 9×9 board that share a unit hold the same non-zero value. */
  predicate NoConflicts(s: Sudoku)
    requires IsGrid(s)
  {
    forall r, c, i, j | 0 <= r < 9 && 0 <= c < 9 && 0 <= i < 9 && 0 <= j < 9 ::
      (r != i || c != j) && SameUnit(r, c, i, j) && s[r][c] != 0 ==> s[r][c] != s[i][j]
  }

  /** `v` is a digit that no cell sharing a unit with (r, c) holds, the cell itself included. */
  predicate Candidate(s: Sudoku, r: int, c: int, v: int)
    requires IsGrid(s)
  {
    IsDigit(v) && forall i, j | 0 <= i < 9 && 0 <= j < 9 && SameUnit(r, c, i, j) :: s[i][j] != v
  }

  /** Writing a candidate value into a cell adds no conflict. */
  lemma WriteCandidateKeepsNoConflicts(s: Sudoku, r: int, c: int, v: int)
    requires IsGrid(s) && 0 <= r < 9 && 0 <= c < 9
    requires NoConflicts(s) && Candidate(s, r, c, v)
    ensures NoConflicts(WriteToCell(s, r, c, v))
  {
    var t := WriteToCell(s, r, c, v);
    forall a, b, i, j | 0 <= a < 9 && 0 <= b < 9 && 0 <= i < 9 && 0 <= j < 9
        && (a != i || b != j) && SameUnit(a, b, i, j) && t[a][b] != 0
      ensures t[a][b] != t[i][j]
    {
      if a == r && b == c {
        assert t[i][j] == s[i][j];
      } else if i == r && j == c {
        assert SameUnit(r, c, a, b);
        assert t[a][b] == s[a][b];
      } else {
        assert t[a][b] == s[a][b] && t[i][j] == s[i][j];
      }
    }
  }
}

=== FILE: iteration.dfy ===
/**
 * One iteration of the solver's outer loop, with the shared iteration
 * counter passed in and out: the solved check, the budget check, the
 * propagation pass, the stall test and, on a stall, the branching step.
 *
 * SolveIteration uses the solved check as written, which fails on every
 * board with a row; SolveIterationRepaired is the same iteration with the
 * repaired check of RepairedCheck.
 */
module Iteration {
  import opened SudokuTypes
  import opened Grid
  import opened Candidates
  import opened Validate
  import opened RepairedCheck
  import opened Propagation
  import opened Branching

  /** The iteration count at which every solver invocation gives up. */
  const Budget: int := 10000000

  /** How an iteration of the outer loop ends. */
  datatype Step =
    | Finished(board: Sudoku, solved: bool)
    | Failed(board: Sudoku, solved: bool)
    | Continue(board: Sudoku)
    | Branch(board: Sudoku, cell: Cell, values: seq<int>, children: seq<Sudoku>)

  /**
   * The branching step on stalled board `s`: the most constrained cell when
   * there is one and the zero Cell otherwise, its eligible values each once,
   * and one child per value, `s` with that value written into the cell.
   */
  ghost predicate DescribesBranch(s: Sudoku, cell: Cell, values: seq<int>, children: seq<Sudoku>) {
    && ((exists r, c :: Branchable(s, r, c)) ==>
          && MostConstrained(s, cell.rowIndex, cell.colIndex)
          && cell == GetValidNumMap(s, cell.rowIndex, cell.colIndex))
    && ((forall r, c :: !Branchable(s, r, c)) ==> cell == NoCell && children == [])
    && (forall v :: v in values <==> v in Eligible(cell.validNumbers))
    && NoRepeats(values)
    && |children| == |values|
    && forall k | 0 <= k < |values| ::
         InBoard(s, cell.rowIndex, cell.colIndex) &&
         children[k] == WriteToCell(s, cell.rowIndex, cell.colIndex, values[k])
  }

  /**
   * One pass of the outer loop of SolveSudoku on the working board `s`, as
   * written. `Finished` is the loop's break (the solved check passed, or the
   * budget is used up), `Failed` the "No solve" return, `Continue` a pass
   * that filled cells, and `Branch` a stalled pass followed by the choice of
   * a cell and the boards handed to the children. Because the solved check
   * fails on every board with a row, a solved 9×9 board is never reported
   * solved: it stalls, branches on the zero Cell with no children, and the
   * loop repeats until the budget is used up.
   */
  method SolveIteration(s: Sudoku, counter: int) returns (step: Step, counter': int)
    ensures ValidateSudoku(s) ==> step == Finished(s, true) && counter' == counter
    ensures !ValidateSudoku(s) ==> counter' == counter + 1
    ensures |s| > 0 ==> !(step.Finished? && step.solved)
    ensures step.Finished? && !step.solved ==> step.board == s && counter' >= Budget
    ensures !step.Finished? ==> counter' < Budget
    ensures IntendedSolved(s) && counter + 1 < Budget ==> step == Branch(s, NoCell, [], [])
    ensures step.Failed? ==>
              && !step.solved
              && Extends(s, step.board)
              && exists i, j | InBoard(step.board, i, j) ::
                   step.board[i][j] == 0 && |Ineligible(GetValidNumMap(step.board, i, j).validNumbers)| == 9
    ensures step.Failed? ==> forall t | IsGrid(s) && IntendedSolved(t) :: !Extends(s, t)
    ensures step.Continue? ==> Extends(s, step.board) && ZeroCount(step.board) < ZeroCount(s)
    ensures step.Continue? ==>
              forall t | IsGrid(s) && IntendedSolved(t) && Extends(s, t) :: Extends(step.board, t)
    ensures step.Branch? ==> step.board == s && DescribesBranch(s, step.cell, step.values, step.children)
    ensures step.Branch? && InDomain(s) && (exists r, c | InBoard(s, r, c) :: s[r][c] == 0) ==>
              exists r, c :: Branchable(s, r, c)
    ensures !step.Finished? ==> step.board == PassFrom(s, 0, 0).board
    ensures !step.Finished? ==> (step.Failed? <==> PassFrom(s, 0, 0).noSolve)
    ensures !step.Finished? ==> (step.Branch? <==> PassFrom(s, 0, 0) == PassResult(s, false))
  {
    counter' := counter;
    if ValidateSudoku(s) {
      step := Finished(s, true);
      return;
    }
    var unfilledCount := UnfilledCells(s);
    counter' := counter' + 1;
    if counter' >= Budget {
      step := Finished(s, ValidateSudoku(s));
      return;
    }
    step := PassStep(s, unfilledCount);
  }

  /**
   * The body of the loop after the budget check, as written: one
   * propagation pass, the "No solve" return, the second solved check, and
   * the stall test with the branching step.
   */
  method PassStep(s: Sudoku, unfilledCount: nat) returns (step: Step)
    requires unfilledCount == ZeroCount(s)
    requires !ValidateSudoku(s)
    ensures !step.Finished?
    ensures IntendedSolved(s) ==> step == Branch(s, NoCell, [], [])
    ensures step.Failed? ==>
              && !step.solved
              && Extends(s, step.board)
              && exists i, j | InBoard(step.board, i, j) ::
                   step.board[i][j] == 0 && |Ineligible(GetValidNumMap(step.board, i, j).validNumbers)| == 9
    ensures step.Failed? ==> forall t | IsGrid(s) && IntendedSolved(t) :: !Extends(s, t)
    ensures step.Continue? ==> Extends(s, step.board) && ZeroCount(step.board) < ZeroCount(s)
    ensures step.Continue? ==>
              forall t | IsGrid(s) && IntendedSolved(t) && Extends(s, t) :: Extends(step.board, t)
    ensures step.Branch? ==> step.board == s && DescribesBranch(s, step.cell, step.values, step.children)
    ensures step.Branch? && InDomain(s) && (exists r, c | InBoard(s, r, c) :: s[r][c] == 0) ==>
              exists r, c :: Branchable(s, r, c)
    ensures step.board == PassFrom(s, 0, 0).board
    ensures step.Failed? <==> PassFrom(s, 0, 0).noSolve
    ensures step.Branch? <==> PassFrom(s, 0, 0) == PassResult(s, false)
  {
    var board, noSolve := PropagationPass(s);
    if IntendedSolved(s) {
      ExtendsReflexive(s);
      ExtendsAntisymmetric(s, board);
      SolvedBoardHasNoBranch(s);
    }
    if noSolve {
      step := Failed(board, ValidateSudoku(board));
      forall t | IsGrid(s) && IntendedSolved(t) ensures !Extends(s, t) {
      }
      return;
    }
    if ValidateSudoku(board) {
      step := Finished(board, true);
      return;
    }
    step := StallOrContinue(s, board, unfilledCount);
  }

  /**
   * The same iteration with the repaired solved check: it stops at once
   * exactly on solved 9×9 boards, and a pass that completes the board ends
   * the loop with the board reported solved.
   */
  method SolveIterationRepaired(s: Sudoku, counter: int) returns (step: Step, counter': int)
    ensures ValidateSudokuCorrected(s) ==> step == Finished(s, true) && counter' == counter
    ensures IsGrid(s) ==> (step == Finished(s, true) <==> IntendedSolved(s))
    ensures !ValidateSudokuCorrected(s) ==> counter' == counter + 1
    ensures step.Finished? && !step.solved ==> step.board == s && counter' >= Budget
    ensures step.Finished? && step.solved ==> ValidateSudokuCorrected(step.board) && Extends(s, step.board)
    ensures step.Finished? && step.solved && IsGrid(s) ==> IntendedSolved(step.board)
    ensures !step.Finished? ==> counter' < Budget
    ensures step.Failed? ==>
              && Extends(s, step.board)
              && exists i, j | InBoard(step.board, i, j) ::
                   step.board[i][j] == 0 && |Ineligible(GetValidNumMap(step.board, i, j).validNumbers)| == 9
    ensures step.Failed? && IsGrid(s) ==> !step.solved
    ensures step.Failed? ==> forall t | IsGrid(s) && IntendedSolved(t) :: !Extends(s, t)
    ensures step.Continue? ==>
              && Extends(s, step.board) && ZeroCount(step.board) < ZeroCount(s)
              && !ValidateSudokuCorrected(step.board)
    ensures step.Continue? ==>
              forall t | IsGrid(s) && IntendedSolved(t) && Extends(s, t) :: Extends(step.board, t)
    ensures step.Branch? ==> step.board == s && DescribesBranch(s, step.cell, step.values, step.children)
    ensures step.Branch? && InDomain(s) && (exists r, c | InBoard(s, r, c) :: s[r][c] == 0) ==>
              exists r, c :: Branchable(s, r, c)
    ensures !ValidateSudokuCorrected(s) && !(step.Finished? && !step.solved) ==>
              step.board == PassFrom(s, 0, 0).board
    ensures !ValidateSudokuCorrected(s) && !(step.Finished? && !step.solved) ==>
              (step.Failed? <==> PassFrom(s, 0, 0).noSolve)
    ensures !step.Finished? ==> (step.Branch? <==> PassFrom(s, 0, 0) == PassResult(s, false))
  {
    if IsGrid(s) {
      ValidateSudokuCorrectedMeansSolved(s);
    }
    counter' := counter;
    if ValidateSudokuCorrected(s) {
      step := Finished(s, true);
      return;
    }
    var unfilledCount := UnfilledCells(s);
    counter' := counter' + 1;
    if counter' >= Budget {
      step := Finished(s, ValidateSudokuCorrected(s));
      return;
    }
    step := PassStepRepaired(s, unfilledCount);
  }

  /** PassStep with the repaired solved check. */
  method PassStepRepaired(s: Sudoku, unfilledCount: nat) returns (step: Step)
    requires unfilledCount == ZeroCount(s)
    requires !ValidateSudokuCorrected(s)
    ensures step.Finished? ==> step.solved && ValidateSudokuCorrected(step.board) && Extends(s, step.board)
    ensures step.Finished? && IsGrid(s) ==> IntendedSolved(step.board)
    ensures step.Failed? ==>
              && Extends(s, step.board)
              && exists i, j | InBoard(step.board, i, j) ::
                   step.board[i][j] == 0 && |Ineligible(GetValidNumMap(step.board, i, j).validNumbers)| == 9
    ensures step.Failed? && IsGrid(s) ==> !step.solved
    ensures step.Failed? ==> forall t | IsGrid(s) && IntendedSolved(t) :: !Extends(s, t)
    ensures step.Continue? ==>
              && Extends(s, step.board) && ZeroCount(step.board) < ZeroCount(s)
              && !ValidateSudokuCorrected(step.board)
    ensures step.Continue? ==>
              forall t | IsGrid(s) && IntendedSolved(t) && Extends(s, t) :: Extends(step.board, t)
    ensures step.Branch? ==> step.board == s && DescribesBranch(s, step.cell, step.values, step.children)
    ensures step.Branch? && InDomain(s) && (exists r, c | InBoard(s, r, c) :: s[r][c] == 0) ==>
              exists r, c :: Branchable(s, r, c)
    ensures step.board == PassFrom(s, 0, 0).board
    ensures step.Failed? <==> PassFrom(s, 0, 0).noSolve
    ensures step.Finished? <==> !PassFrom(s, 0, 0).noSolve && ValidateSudokuCorrected(PassFrom(s, 0, 0).board)
    ensures step.Branch? <==> PassFrom(s, 0, 0) == PassResult(s, false)
  {
    var board, noSolve := PropagationPass(s);
    if noSolve {
      step := Failed(board, ValidateSudokuCorrected(board));
      forall t | IsGrid(s) && IntendedSolved(t) ensures !Extends(s, t) {
      }
      if IsGrid(s) {
        var i, j :| InBoard(board, i, j) && board[i][j] == 0;
        ExtendsGrid(s, board);
        EmptyCellNotSolved(board, i, j);
      }
      return;
    }
    if ValidateSudokuCorrected(board) {
      step := Finished(board, true);
      if IsGrid(s) {
        ExtendsGrid(s, board);
        ValidateSudokuCorrectedMeansSolved(board);
      }
      return;
    }
    step := StallOrContinue(s, board, unfilledCount);
  }

  /**
   * The stall test after a pass that neither failed nor solved: the loop
   * carries on when the pass filled a cell, and otherwise branches on the
   * unchanged board.
   */
  method StallOrContinue(s: Sudoku, board: Sudoku, unfilledCount: nat) returns (step: Step)
    requires unfilledCount == ZeroCount(s)
    requires Extends(s, board) && ZeroCount(board) <= ZeroCount(s)
    requires ZeroCount(board) == ZeroCount(s) <==> board == s
    requires forall t | IsGrid(s) && IntendedSolved(t) && Extends(s, t) :: Extends(board, t)
    requires InDomain(s) && board == s ==>
               forall i, j | InBoard(s, i, j) && s[i][j] == 0 :: |Eligible(GetValidNumMap(s, i, j).validNumbers)| >= 2
    ensures step == Continue(board) || (step.Branch? && board == s && step.board == s)
    ensures step.Continue? <==> ZeroCount(board) < ZeroCount(s)
    ensures step.Branch? <==> board == s
    ensures step.Branch? ==> DescribesBranch(s, step.cell, step.values, step.children)
    ensures step.Branch? && InDomain(s) && (exists r, c | InBoard(s, r, c) :: s[r][c] == 0) ==>
              exists r, c :: Branchable(s, r, c)
  {
    var unfilledNow := UnfilledCells(board);
    if unfilledNow >= unfilledCount {
      var cell, values, children := StalledStep(board);
      step := Branch(board, cell, values, children);
      if InDomain(s) {
        StallLeavesBranchable(s);
      }
    } else {
      step := Continue(board);
    }
  }

  /** A solved board has no empty cell, so no cell to branch on. */
  lemma SolvedBoardHasNoBranch(s: Sudoku)
    requires IntendedSolved(s)
    ensures forall r, c :: !Branchable(s, r, c)
  {
    forall r, c | InBoard(s, r, c) ensures s[r][c] != 0 {
      assert 0 <= r < 9 && 0 <= c < 9;
    }
  }

  /** A board that extends a 9×9 board is 9×9 too. */
  lemma ExtendsGrid(s: Sudoku, t: Sudoku)
    requires IsGrid(s) && Extends(s, t)
    ensures IsGrid(t)
  {
  }

  /** A 9×9 board with an empty cell fails the repaired solved check. */
  lemma EmptyCellNotSolved(b: Sudoku, i: int, j: int)
    requires IsGrid(b) && InBoard(b, i, j) && b[i][j] == 0
    ensures !ValidateSudokuCorrected(b)
  {
    ValidateSudokuCorrectedMeansSolved(b);
  }

  /**
   * The stalled arm of the loop: pick the most constrained empty cell, list
   * its candidates and build one child board per candidate.
   */
  method StalledStep(board: Sudoku) returns (cell: Cell, values: seq<int>, children: seq<Sudoku>)
    ensures DescribesBranch(board, cell, values, children)
  {
    cell := SelectBranchCell(board);
    if forall r, c :: !Branchable(board, r, c) {
      assert Eligible(cell.validNumbers) == {};
    }
    values, children := BranchChildren(board, cell);
  }

  /** A stalled board with an empty cell has a cell to branch on. */
  lemma StallLeavesBranchable(s: Sudoku)
    requires forall i, j | InBoard(s, i, j) && s[i][j] == 0 :: CandidateCount(s, i, j) >= 2
    ensures (exists r, c | InBoard(s, r, c) :: s[r][c] == 0) ==> exists r, c :: Branchable(s, r, c)
  {
    if exists r, c | InBoard(s, r, c) :: s[r][c] == 0 {
      var r, c :| InBoard(s, r, c) && s[r][c] == 0;
      StalledBoardBranches(s, r, c);
    }
  }
}

=== FILE: parser.dfy ===
/**
 * Reading a puzzle: each line has its commas turned into spaces, is split
 * into whitespace-separated fields, and each field becomes one integer, 0
 * when it is not a decimal integer.
 */
module Parser {
  import opened SudokuTypes

  datatype Option<T> = None | Some(value: T)

  /** The range of Go's 64-bit `int`, which strconv.Atoi's result must fit. */
  const MinInt64: int := -0x8000_0000_0000_0000
  const MaxInt64: int := 0x7FFF_FFFF_FFFF_FFFF

  predicate IsDecimalDigit(ch: char) {
    '0' <= ch <= '9'
  }

  predicate IsSign(ch: char) {
    ch == '-' || ch == '+'
  }

  predicate AllDecimalDigits(ds: string) {
    forall i | 0 <= i < |ds| :: IsDecimalDigit(ds[i])
  }

  /** The value of a string of decimal digits, most significant first. */
  function DigitsValue(ds: string): nat
    requires AllDecimalDigits(ds)
  {
    if |ds| == 0 then 0
    else DigitsValue(ds[..|ds| - 1]) * 10 + (ds[|ds| - 1] as int - '0' as int)
  }

  function Pow10(n: nat): nat {
    if n == 0 then 1 else 10 * Pow10(n - 1)
  }

  lemma {:induction false} DigitsValueBound(ds: string)
    requires AllDecimalDigits(ds)
    ensures DigitsValue(ds) < Pow10(|ds|)
  {
    if |ds| > 0 {
      DigitsValueBound(ds[..|ds| - 1]);
    }
  }

  /**
   * strconv.Atoi in base 10: an optional sign followed by one or more
   * decimal digits, whose value must fit a 64-bit int; anything else is an
   * error. Leading zeros are allowed; base prefixes and underscores are not.
   */
  function Atoi(token: string): (n: Option<int>)
    ensures n.Some? ==> |token| > 0 && MinInt64 <= n.value <= MaxInt64
    ensures n.Some? ==> |token| > (if IsSign(token[0]) then 1 else 0)
    ensures n.Some? && token[0] == '-' ==> n.value <= 0
    ensures n.Some? && token[0] != '-' ==> n.value >= 0
    ensures (exists i | 0 <= i < |token| :: !IsDecimalDigit(token[i]) && (i > 0 || !IsSign(token[i]))) ==> n == None
    ensures 0 < |token| <= 18 && AllDecimalDigits(token) ==> n.Some?
  {
    if |token| == 0 then None
    else if IsSign(token[0]) then
      assert forall i | 1 <= i < |token| :: token[1..][i - 1] == token[i];
      SignedDigits(token[0] == '-', token[1..])
    else SignedDigits(false, token)
  }

  /** The digits after the sign, read as a 64-bit int with the given sign. */
  function SignedDigits(negative: bool, digits: string): (n: Option<int>)
    ensures n.Some? ==> MinInt64 <= n.value <= MaxInt64
    ensures n.Some? ==> if negative then n.value <= 0 else n.value >= 0
    ensures n.Some? ==> |digits| > 0 && AllDecimalDigits(digits)
    ensures 0 < |digits| <= 18 && AllDecimalDigits(digits) ==> n.Some?
  {
    if |digits| == 0 || !AllDecimalDigits(digits) then None
    else
      var magnitude: int := DigitsValue(digits);
      var value := if negative then -magnitude else magnitude;
      if MinInt64 <= value <= MaxInt64 then Some(value)
      else
        assert |digits| > 18 by {
          if |digits| <= 18 {
            DigitsValueBound(digits);
            Pow10Monotone(|digits|, 18);
            Pow10Eighteen();
          }
        }
        None
  }

  lemma Pow10Eighteen()
    ensures Pow10(18) == 1_000_000_000_000_000_000
  {
    assert Pow10(6) == 1_000_000;
    assert Pow10(12) == 1_000_000_000_000;
  }

  lemma {:induction false} Pow10Monotone(m: nat, n: nat)
    requires m <= n
    ensures Pow10(m) <= Pow10(n)
    decreases n
  {
    if m < n {
      Pow10Monotone(m, n - 1);
    }
  }

  /** The decimal digits of n, most significant first, without leading zeros. */
  function NatToDecimal(n: nat): (ds: string)
    ensures |ds| > 0 && AllDecimalDigits(ds)
  {
    var last := ('0' as int + n % 10) as char;
    if n < 10 then [last] else NatToDecimal(n / 10) + [last]
  }

  /** How fmt prints an int: a minus sign for negatives, then the digits. */
  function ToDecimal(n: int): (token: string)
    ensures |token| > 0
  {
    if n < 0 then "-" + NatToDecimal(-n) else NatToDecimal(n)
  }

  lemma {:induction false} NatToDecimalValue(n: nat)
    ensures DigitsValue(NatToDecimal(n)) == n
  {
    if n >= 10 {
      NatToDecimalValue(n / 10);
      var ds := NatToDecimal(n);
      assert ds[..|ds| - 1] == NatToDecimal(n / 10);
    }
  }

  /** Atoi reads back every 64-bit integer written in decimal. */
  lemma AtoiOfDecimal(n: int)
    requires MinInt64 <= n <= MaxInt64
    ensures Atoi(ToDecimal(n)) == Some(n)
  {
    if n < 0 {
      AtoiOfNegative(n);
    } else {
      NatToDecimalValue(n);
      var ds := NatToDecimal(n);
      assert !IsSign(ds[0]);
      assert SignedDigits(false, ds) == Some(n);
    }
  }

  lemma AtoiOfNegative(n: int)
    requires MinInt64 <= n < 0
    ensures Atoi(ToDecimal(n)) == Some(n)
  {
    NatToDecimalValue(-n);
    var token := ToDecimal(n);
    assert token[0] == '-' && token[1..] == NatToDecimal(-n);
    assert SignedDigits(true, NatToDecimal(-n)) == Some(n);
  }

  /** k zero digits. */
  function Zeros(k: nat): (z: string)
    ensures |z| == k && AllDecimalDigits(z)
  {
    seq(k, _ => '0')
  }

  /** Leading zeros do not change the value of a digit string. */
  lemma {:induction false} LeadingZerosValue(k: nat, ds: string)
    requires AllDecimalDigits(ds)
    ensures AllDecimalDigits(Zeros(k) + ds)
    ensures DigitsValue(Zeros(k) + ds) == DigitsValue(ds)
    decreases |ds|, k
  {
    var t := Zeros(k) + ds;
    assert AllDecimalDigits(t) by {
      forall i | 0 <= i < |t| ensures IsDecimalDigit(t[i]) {
        if i >= k {
          assert t[i] == ds[i - k];
        }
      }
    }
    if |ds| > 0 {
      assert t[..|t| - 1] == Zeros(k) + ds[..|ds| - 1];
      assert t[|t| - 1] == ds[|ds| - 1];
      LeadingZerosValue(k, ds[..|ds| - 1]);
    } else if k > 0 {
      assert t == Zeros(k);
      assert t[..|t| - 1] == Zeros(k - 1) + ds;
      LeadingZerosValue(k - 1, ds);
    }
  }

  /**
   * What Atoi accepts and returns: a sign ("", "+" or "-") followed by one or
   * more decimal digits of any length, leading zeros included, is read as the
   * signed value of the digits when that fits a 64-bit int, and is an error
   * otherwise.
   */
  lemma AtoiValue(sign: string, ds: string)
    requires sign == "" || sign == "+" || sign == "-"
    requires |ds| > 0 && AllDecimalDigits(ds)
    ensures var value := if sign == "-" then -(DigitsValue(ds) as int) else DigitsValue(ds) as int;
            Atoi(sign + ds) == if MinInt64 <= value <= MaxInt64 then Some(value) else None
  {
    var token := sign + ds;
    if sign == "" {
      assert token == ds && !IsSign(ds[0]);
    } else {
      assert token[0] == sign[0] && token[1..] == ds;
    }
  }

  /** Atoi reads a non-negative int written with leading zeros, or with a plus sign, as itself. */
  lemma AtoiIgnoresZerosAndPlus(k: nat, n: nat)
    requires n <= MaxInt64
    ensures var ds := Zeros(k) + NatToDecimal(n);
            Atoi(ds) == Some(n) && Atoi("+" + ds) == Some(n)
  {
    var ds := Zeros(k) + NatToDecimal(n);
    PaddedValue(k, n);
    AtoiReads("", ds, n);
    AtoiReads("+", ds, n);
  }

  /** AtoiValue for a digit string whose value is known to fit. */
  lemma AtoiReads(sign: string, ds: string, v: nat)
    requires sign == "" || sign == "+"
    requires |ds| > 0 && AllDecimalDigits(ds) && DigitsValue(ds) == v <= MaxInt64
    ensures Atoi(sign + ds) == Some(v)
  {
    AtoiValue(sign, ds);
  }

  lemma PaddedValue(k: nat, n: nat)
    ensures AllDecimalDigits(Zeros(k) + NatToDecimal(n))
    ensures |Zeros(k) + NatToDecimal(n)| > 0
    ensures DigitsValue(Zeros(k) + NatToDecimal(n)) == n
  {
    NatToDecimalValue(n);
    LeadingZerosValue(k, NatToDecimal(n));
  }

  /** The value convertToRow stores for one field: the integer it spells, or 0. */
  function TokenValue(token: string): int {
    match Atoi(token)
    case Some(n) => n
    case None => 0
  }

  /**
   * The characters unicode.IsSpace accepts: tab, line feed, vertical tab,
   * form feed and carriage return (U+0009 to U+000D), space, U+0085 and
   * U+00A0, and the other characters with the Unicode White_Space property.
   */
  predicate IsSpace(ch: char) {
    || ('\t' <= ch <= '\r') || ch == ' ' || ch == '\U{0085}' || ch == '\U{00A0}' || ch == '\U{1680}'
    || ('\U{2000}' <= ch <= '\U{200A}') || ch == '\U{2028}' || ch == '\U{2029}' || ch == '\U{202F}'
    || ch == '\U{205F}' || ch == '\U{3000}'
  }

  predicate NoSpace(s: string) {
    forall i | 0 <= i < |s| :: !IsSpace(s[i])
  }

  /** Length of the run of non-space characters at the start of s. */
  function FieldLength(s: string): (n: nat)
    ensures n <= |s|
    ensures NoSpace(s[..n])
    ensures n < |s| ==> IsSpace(s[n])
  {
    if |s| == 0 || IsSpace(s[0]) then 0
    else
      var n := 1 + FieldLength(s[1..]);
      assert forall i | 1 <= i < n :: s[..n][i] == s[1..][..n - 1][i - 1];
      n
  }

  /** strings.Fields: the maximal runs of non-space characters, in order. */
  function Fields(s: string): (fields: seq<string>)
    ensures forall k | 0 <= k < |fields| :: |fields[k]| > 0 && NoSpace(fields[k])
    decreases |s|
  {
    if |s| == 0 then []
    else if IsSpace(s[0]) then Fields(s[1..])
    else
      var n := FieldLength(s);
      [s[..n]] + Fields(s[n..])
  }

  /** strings.Replace(line, ",", " ", -1). */
  function ReplaceCommas(line: string): (out: string)
    ensures |out| == |line|
    ensures forall i | 0 <= i < |line| :: out[i] == if line[i] == ',' then ' ' else line[i]
  {
    if |line| == 0 then []
    else ReplaceCommas(line[..|line| - 1]) + [if line[|line| - 1] == ',' then ' ' else line[|line| - 1]]
  }

  /** convertToRow: one integer per field, in field order. */
  function ConvertToRow(stringSlice: seq<string>): (row: Row)
    ensures |row| == |stringSlice|
    ensures forall i | 0 <= i < |row| :: row[i] == TokenValue(stringSlice[i])
  {
    if |stringSlice| == 0 then []
    else ConvertToRow(stringSlice[..|stringSlice| - 1]) + [TokenValue(stringSlice[|stringSlice| - 1])]
  }

  /** The row one line of the puzzle file becomes. */
  function ParseLine(line: string): Row {
    ConvertToRow(Fields(ReplaceCommas(line)))
  }

  /** The loop of CreateBoard over the lines the scanner yields: one row per line, in order. */
  method CreateBoard(lines: seq<string>) returns (sudoku: Sudoku)
    ensures |sudoku| == |lines|
    ensures forall i | 0 <= i < |lines| :: sudoku[i] == ParseLine(lines[i])
  {
    sudoku := [];
    var i := 0;
    while i < |lines|
      invariant 0 <= i <= |lines| && |sudoku| == i
      invariant forall k | 0 <= k < i :: sudoku[k] == ParseLine(lines[k])
    {
      var replaceStrings := ReplaceCommas(lines[i]);
      var stringSlice := Fields(replaceStrings);
      var row := ConvertToRow(stringSlice);
      sudoku := sudoku + [row];
      i := i + 1;
    }
  }

  /** Two strings that agree on which characters are spaces and on every other character. */
  predicate SameUpToSpaces(s: string, t: string) {
    && |s| == |t|
    && forall i | 0 <= i < |s| :: IsSpace(s[i]) == IsSpace(t[i]) && (!IsSpace(s[i]) ==> s[i] == t[i])
  }

  lemma {:induction false} FieldLengthUpToSpaces(s: string, t: string)
    requires SameUpToSpaces(s, t)
    ensures FieldLength(s) == FieldLength(t)
    ensures s[..FieldLength(s)] == t[..FieldLength(t)]
  {
    if |s| > 0 && !IsSpace(s[0]) {
      FieldLengthUpToSpaces(s[1..], t[1..]);
    }
  }

  /** Which whitespace character separates two fields does not matter. */
  lemma {:induction false} FieldsUpToSpaces(s: string, t: string)
    requires SameUpToSpaces(s, t)
    ensures Fields(s) == Fields(t)
    decreases |s|
  {
    if |s| > 0 {
      if IsSpace(s[0]) {
        FieldsUpToSpaces(s[1..], t[1..]);
      } else {
        FieldLengthUpToSpaces(s, t);
        var n := FieldLength(s);
        FieldsUpToSpaces(s[n..], t[n..]);
      }
    }
  }

  /** A comma anywhere in a line may be replaced by any whitespace character without changing the row. */
  lemma CommaActsAsSpace(line: string, i: int, ch: char)
    requires 0 <= i < |line| && line[i] == ',' && IsSpace(ch)
    ensures ParseLine(line[i := ch]) == ParseLine(line)
  {
    FieldsUpToSpaces(ReplaceCommas(line[i := ch]), ReplaceCommas(line));
  }

  /** The fields joined by single spaces. */
  function JoinSpaced(fields: seq<string>): string {
    if |fields| == 0 then ""
    else if |fields| == 1 then fields[0]
    else fields[0] + " " + JoinSpaced(fields[1..])
  }

  /** Fields undoes JoinSpaced on fields that are non-empty and hold no space. */
  lemma {:induction false} FieldsOfJoin(fields: seq<string>)
    requires forall k | 0 <= k < |fields| :: |fields[k]| > 0 && NoSpace(fields[k])
    ensures Fields(JoinSpaced(fields)) == fields
  {
    if |fields| == 1 {
      FieldOfWord(fields[0], "");
      assert fields[0] + "" == fields[0];
    } else if |fields| > 1 {
      var rest := JoinSpaced(fields[1..]);
      FieldsOfJoin(fields[1..]);
      FieldOfWord(fields[0], " " + rest);
      assert JoinSpaced(fields) == fields[0] + (" " + rest);
      assert (" " + rest)[1..] == rest;
      assert fields == [fields[0]] + fields[1..];
    }
  }

  /**
   * A white-space character splits the fields: those of the text before it
   * followed by those of the text after it. Runs of separators and leading
   * or trailing white space therefore add no empty field.
   */
  lemma {:induction false} FieldsSplit(a: string, ch: char, b: string)
    requires IsSpace(ch)
    ensures Fields(a + [ch] + b) == Fields(a) + Fields(b)
    decreases |a|
  {
    var x := a + [ch] + b;
    if |a| == 0 {
      assert x[1..] == b;
    } else if IsSpace(a[0]) {
      assert x[1..] == a[1..] + [ch] + b;
      FieldsSplit(a[1..], ch, b);
    } else {
      FieldLengthSplit(a, ch, b);
      var n := FieldLength(x);
      assert x[..n] == a[..n];
      if n < |a| {
        assert x[n..] == a[n..] + [ch] + b;
        FieldsSplit(a[n..], ch, b);
      } else {
        assert x[n..] == [ch] + b;
        assert ([ch] + b)[1..] == b;
        assert a[n..] == [];
      }
    }
  }

  /** A line with doubled, leading and trailing separators yields no empty field. */
  lemma SeparatorRunsDropped()
    ensures Fields(ReplaceCommas(",1,,2 ")) == ["1", "2"]
  {
    SampleCommasReplaced();
    PaddedWords("1", "2", ' ');
    assert " 1  2 " == [' '] + "1" + [' ', ' '] + "2" + [' '];
  }

  /** Two words with a separator before, a doubled separator between and one after. */
  lemma PaddedWords(w1: string, w2: string, sp: char)
    requires |w1| > 0 && NoSpace(w1) && |w2| > 0 && NoSpace(w2) && IsSpace(sp)
    ensures Fields([sp] + w1 + [sp, sp] + w2 + [sp]) == [w1, w2]
  {
    var tail2 := w2 + [sp];
    var tail1 := [sp] + tail2;
    var tail0 := w1 + [sp] + tail1;
    assert Fields(tail1) == [w2] by {
      WordThenSpace(w2, sp);
      LeadingSpace(sp, tail2);
    }
    assert Fields(tail0) == [w1, w2] by {
      FieldOfWord(w1, "");
      assert w1 + "" == w1;
      FieldsSplit(w1, sp, tail1);
    }
    LeadingSpace(sp, tail0);
    PaddedShape(w1, w2, sp);
  }

  lemma PaddedShape(w1: string, w2: string, sp: char)
    ensures [sp] + w1 + [sp, sp] + w2 + [sp] == [sp] + (w1 + [sp] + ([sp] + (w2 + [sp])))
  {
  }

  lemma WordThenSpace(w: string, sp: char)
    requires |w| > 0 && NoSpace(w) && IsSpace(sp)
    ensures Fields(w + [sp]) == [w]
  {
    FieldOfWord(w, [sp]);
    assert ([sp])[1..] == [];
  }

  lemma LeadingSpace(sp: char, t: string)
    requires IsSpace(sp)
    ensures Fields([sp] + t) == Fields(t)
  {
    assert ([sp] + t)[1..] == t;
  }

  lemma SampleCommasReplaced()
    ensures ReplaceCommas(",1,,2 ") == " 1  2 "
  {
    var line := ",1,,2 ";
    assert line[..5] == ",1,,2" && line[..4] == ",1,," && line[..3] == ",1,";
    assert line[..2] == ",1" && line[..1] == ",";
    assert ",1,,2"[..4] == ",1,," && ",1,,"[..3] == ",1," && ",1,"[..2] == ",1" && ",1"[..1] == ",";
    assert ","[..0] == "";
  }

  /** The first field of a + [ch] + b ends inside a, or exactly at ch. */
  lemma {:induction false} FieldLengthSplit(a: string, ch: char, b: string)
    requires IsSpace(ch)
    ensures FieldLength(a + [ch] + b) == if FieldLength(a) < |a| then FieldLength(a) else |a|
    decreases |a|
  {
    if |a| > 0 && !IsSpace(a[0]) {
      assert (a + [ch] + b)[1..] == a[1..] + [ch] + b;
      FieldLengthSplit(a[1..], ch, b);
    }
  }

  /** A word followed by nothing or by a space is a field by itself. */
  lemma {:induction false} FieldOfWord(w: string, tail: string)
    requires |w| > 0 && NoSpace(w)
    requires |tail| == 0 || IsSpace(tail[0])
    ensures FieldLength(w + tail) == |w|
    ensures Fields(w + tail) == [w] + Fields(tail)
  {
    FieldLengthOfWord(w, tail);
    assert (w + tail)[..|w|] == w;
    assert (w + tail)[|w|..] == tail;
  }

  lemma {:induction false} FieldLengthOfWord(w: string, tail: string)
    requires NoSpace(w)
    requires |tail| == 0 || IsSpace(tail[0])
    ensures FieldLength(w + tail) == |w|
  {
    if |w| > 0 {
      FieldLengthOfWord(w[1..], tail);
      assert (w + tail)[1..] == w[1..] + tail;
    }
  }

  /** A row written out with each value in decimal and a comma after every value but the last. */
  function FormatRow(row: Row): string {
    if |row| == 0 then ""
    else if |row| == 1 then ToDecimal(row[0])
    else ToDecimal(row[0]) + "," + FormatRow(row[1..])
  }

  /** The decimal spelling of each value of the row. */
  function Decimals(row: Row): (tokens: seq<string>)
    ensures |tokens| == |row|
    ensures forall k | 0 <= k < |row| :: tokens[k] == ToDecimal(row[k])
  {
    if |row| == 0 then [] else [ToDecimal(row[0])] + Decimals(row[1..])
  }

  /** Neither a comma nor a space occurs in t. */
  predicate Plain(t: string) {
    forall i | 0 <= i < |t| :: t[i] != ',' && !IsSpace(t[i])
  }

  lemma {:induction false} DecimalIsPlain(n: int)
    ensures Plain(ToDecimal(n))
  {
    var ds := if n < 0 then NatToDecimal(-n) else NatToDecimal(n);
    assert AllDecimalDigits(ds);
    if n < 0 {
      assert forall i | 1 <= i < |ToDecimal(n)| :: ToDecimal(n)[i] == ds[i - 1];
    }
  }

  lemma ReplaceCommasAppend(a: string, b: string)
    ensures ReplaceCommas(a + b) == ReplaceCommas(a) + ReplaceCommas(b)
  {
  }

  /** Replacing the commas of a formatted row leaves its decimals joined by spaces. */
  lemma {:induction false} FormatRowSpaced(row: Row)
    ensures ReplaceCommas(FormatRow(row)) == JoinSpaced(Decimals(row))
  {
    if |row| > 0 {
      var head := ToDecimal(row[0]);
      DecimalIsPlain(row[0]);
      assert ReplaceCommas(head) == head;
      if |row| > 1 {
        var tail := FormatRow(row[1..]);
        FormatRowSpaced(row[1..]);
        ReplaceCommasAppend(head + ",", tail);
        ReplaceCommasAppend(head, ",");
        assert Decimals(row)[1..] == Decimals(row[1..]);
      }
    }
  }

  /**
   * A row of 64-bit integers written with commas between the values parses
   * back to the same row.
   */
  lemma ParseFormattedRow(row: Row)
    requires forall k | 0 <= k < |row| :: MinInt64 <= row[k] <= MaxInt64
    ensures ParseLine(FormatRow(row)) == row
  {
    FormatRowSpaced(row);
    DecimalsAreFields(row);
    FieldsOfJoin(Decimals(row));
    DecimalsReadBack(row);
  }

  lemma DecimalsAreFields(row: Row)
    ensures forall k | 0 <= k < |row| :: |Decimals(row)[k]| > 0 && NoSpace(Decimals(row)[k])
  {
    forall k | 0 <= k < |row| ensures |Decimals(row)[k]| > 0 && NoSpace(Decimals(row)[k]) {
      DecimalIsPlain(row[k]);
    }
  }

  lemma DecimalsReadBack(row: Row)
    requires forall k | 0 <= k < |row| :: MinInt64 <= row[k] <= MaxInt64
    ensures ConvertToRow(Decimals(row)) == row
  {
    var decimals := Decimals(row);
    forall k | 0 <= k < |row| ensures TokenValue(decimals[k]) == row[k] {
      AtoiOfDecimal(row[k]);
    }
  }

  /**
   * A sample line: commas and spaces both separate fields, a field that is
   * not an integer reads as 0, and integers outside 1..9 are kept as they are.
   */
  lemma SampleLine()
    ensures ParseLine("-3,12,x 5") == [-3, 12, 0, 5]
  {
    var fields := ["-3", "12", "x", "5"];
    SampleSpaced(fields);
    FieldsOfJoin(fields);
    SampleRow();
  }

  lemma SampleSpaced(fields: seq<string>)
    requires fields == ["-3", "12", "x", "5"]
    ensures ReplaceCommas("-3,12,x 5") == JoinSpaced(fields)
  {
    assert JoinSpaced(fields[3..]) == "5";
    assert JoinSpaced(fields[2..]) == "x 5";
    assert JoinSpaced(fields[1..]) == "12 x 5";
  }

  lemma SampleRow()
    ensures ConvertToRow(["-3", "12", "x", "5"]) == [-3, 12, 0, 5]
  {
    SampleValues();
    var fields := ["-3", "12", "x", "5"];
    var row := ConvertToRow(fields);
    assert row[0] == TokenValue(fields[0]) && row[1] == TokenValue(fields[1]);
    assert row[2] == TokenValue(fields[2]) && row[3] == TokenValue(fields[3]);
  }

  lemma SampleValues()
    ensures TokenValue("-3") == -3 && TokenValue("12") == 12
    ensures TokenValue("x") == 0 && TokenValue("5") == 5
  {
    assert DigitsValue("3") == 3;
    assert "-3"[1..] == "3";
    assert DigitsValue("12") == 12 by {
      assert "12"[..1] == "1";
    }
  }
}

=== FILE: propagation.dfy ===
/**
 * The propagation pass of the solver loop: every empty cell, row by row,
 * gets its eligibility map and is filled when exactly one value remains;
 * a cell left with nine ineligible values stops the pass with "No solve".
 */
module Propagation {
  import opened SudokuTypes
  import opened Grid
  import opened Candidates
  import opened Validate

  /** What a pass leaves: the board, and whether it stopped on a cell with nothing eligible. */
  datatype PassResult = PassResult(board: Sudoku, noSolve: bool)

  /** Same number of rows and same row lengths. */
  predicate SameShape(s: Sudoku, t: Sudoku) {
    |t| == |s| && forall r | 0 <= r < |s| :: |t[r]| == |s[r]|
  }

  /** (r, c) is a place a row-major walk over `s` can resume from. */
  predicate Position(s: Sudoku, r: int, c: int) {
    && 0 <= r <= |s|
    && (r < |s| ==> 0 <= c <= |s[r]|)
    && (r == |s| ==> c == 0)
  }

  /** (i, j) comes strictly before (r, c) in row-major order. */
  predicate Before(i: int, j: int, r: int, c: int) {
    i < r || (i == r && j < c)
  }

  /** The value UpdateCellWithValidNum reports for the cell (r, c) of `s`. */
  ghost function Outcome(s: Sudoku, r: int, c: int): int
    requires 0 <= r < |s|
  {
    UpdateOutcome(GetValidNumMap(s, r, c).validNumbers)
  }

  /** What the pass does at one position: stop with "No solve", or go on from the next position. */
  datatype ScanStep = Stop | Next(board: Sudoku, row: int, col: int)

  /**
   * One step of the pass at (r, c): the end of a row moves to the next row;
   * a filled cell is skipped; an empty cell is written when exactly one
   * value is eligible, and stops the pass when none is.
   */
  ghost function StepAt(s: Sudoku, r: int, c: int): ScanStep
    requires Position(s, r, c) && r < |s|
  {
    if c == |s[r]| then Next(s, r + 1, 0)
    else if s[r][c] != 0 then Next(s, r, c + 1)
    else
      var v := Outcome(s, r, c);
      if v == -1 then Stop
      else if IsDigit(v) then Next(WriteToCell(s, r, c, v), r, c + 1)
      else Next(s, r, c + 1)
  }

  /** A step keeps the board's shape and moves one position forward in row-major order. */
  lemma StepAdvances(s: Sudoku, r: int, c: int)
    requires Position(s, r, c) && r < |s|
    ensures StepAt(s, r, c).Next? ==>
              var n := StepAt(s, r, c);
              && SameShape(s, n.board)
              && Position(n.board, n.row, n.col)
              && ((c == |s[r]| && n.row == r + 1 && n.col == 0) || (c < |s[r]| && n.row == r && n.col == c + 1))
  {
  }

  /**
   * The pass from (r, c) on, one cell at a time in row-major order; a write
   * is seen by every cell visited after it, as the Go code's in-place updates are.
   */
  ghost function PassFrom(s: Sudoku, r: int, c: int): PassResult
    requires Position(s, r, c)
    decreases |s| - r, if r < |s| then |s[r]| - c else 0
  {
    if r == |s| then PassResult(s, false)
    else
      StepAdvances(s, r, c);
      match StepAt(s, r, c)
      case Stop => PassResult(s, true)
      case Next(t, r', c') => PassFrom(t, r', c')
  }

  /** A step only fills an empty cell with a digit. */
  lemma StepExtends(s: Sudoku, r: int, c: int)
    requires Position(s, r, c) && r < |s|
    ensures StepAt(s, r, c).Next? ==> Extends(s, StepAt(s, r, c).board)
    ensures StepAt(s, r, c).Next? && StepAt(s, r, c).board != s ==>
              c < |s[r]| && s[r][c] == 0 && StepAt(s, r, c).board[r][c] != 0
  {
    ExtendsReflexive(s);
    if c < |s[r]| && s[r][c] == 0 && IsDigit(Outcome(s, r, c)) {
      WriteExtends(s, r, c, Outcome(s, r, c), s);
    }
  }

  /** A step stops only at an empty cell whose nine values are all ineligible. */
  lemma StepStops(s: Sudoku, r: int, c: int)
    requires Position(s, r, c) && r < |s|
    ensures StepAt(s, r, c).Stop? ==>
              InBoard(s, r, c) && s[r][c] == 0 && |Ineligible(GetValidNumMap(s, r, c).validNumbers)| == 9
  {
    if c < |s[r]| && s[r][c] == 0 {
      OutcomeFacts(GetValidNumMap(s, r, c).validNumbers);
    }
  }

  /** The pass only fills empty cells with digits. */
  lemma {:induction false} PassExtends(s: Sudoku, r: int, c: int)
    requires Position(s, r, c)
    ensures Extends(s, PassFrom(s, r, c).board)
    decreases |s| - r, if r < |s| then |s[r]| - c else 0
  {
    ExtendsReflexive(s);
    if r < |s| {
      StepAdvances(s, r, c);
      StepExtends(s, r, c);
      match StepAt(s, r, c)
      case Stop =>
      case Next(t, r', c') =>
        PassExtends(t, r', c');
        ExtendsTransitive(s, t, PassFrom(t, r', c').board);
    }
  }

  /** A pass that reports "No solve" leaves an empty cell whose nine values are all ineligible. */
  lemma {:induction false} PassNoSolveWitness(s: Sudoku, r: int, c: int)
    requires Position(s, r, c)
    ensures var res := PassFrom(s, r, c);
            res.noSolve ==>
              exists i, j | InBoard(res.board, i, j) ::
                res.board[i][j] == 0 && |Ineligible(GetValidNumMap(res.board, i, j).validNumbers)| == 9
    decreases |s| - r, if r < |s| then |s[r]| - c else 0
  {
    if r < |s| {
      StepAdvances(s, r, c);
      StepStops(s, r, c);
      match StepAt(s, r, c)
      case Stop =>
      case Next(t, r', c') =>
        PassNoSolveWitness(t, r', c');
    }
  }

  /**
   * The value a solution puts into an empty cell is eligible there: no cell
   * sharing a unit with it can already hold that value.
   */
  lemma SolutionValueEligible(s: Sudoku, r: int, c: int, t: Sudoku)
    requires IsGrid(s) && 0 <= r < 9 && 0 <= c < 9 && s[r][c] == 0
    requires IntendedSolved(t) && Extends(s, t)
    ensures t[r][c] in Eligible(GetValidNumMap(s, r, c).validNumbers)
  {
    forall i, j | 0 <= i < 9 && 0 <= j < 9 && SameUnit(r, c, i, j) ensures s[i][j] != t[r][c] {
      if i != r || j != c {
        assert t[r][c] != t[i][j];
      }
    }
    CandidatesOnGrid(s, r, c);
  }

  /** A board every value of which is empty or a digit, as any board a solution extends is. */
  lemma ExtendedBoardInDomain(s: Sudoku, t: Sudoku)
    requires IntendedSolved(t) && Extends(s, t)
    ensures InDomain(s)
  {
    forall r, c | 0 <= r < |s| && 0 <= c < |s[r]| ensures 0 <= s[r][c] <= 9 {
      assert IsDigit(t[r][c]);
    }
  }

  /** A step never stops on, and never writes past, a solution that extends the board. */
  lemma StepKeepsSolutions(s: Sudoku, r: int, c: int, t: Sudoku)
    requires IsGrid(s) && Position(s, r, c) && r < |s|
    requires IntendedSolved(t) && Extends(s, t)
    ensures StepAt(s, r, c).Next?
    ensures Extends(StepAt(s, r, c).board, t)
  {
    if c < |s[r]| && s[r][c] == 0 {
      var m := GetValidNumMap(s, r, c).validNumbers;
      SolutionValueEligible(s, r, c, t);
      ExtendedBoardInDomain(s, t);
      GetValidNumMapKeys(s, r, c);
      OutcomeFacts(m);
      var v := Outcome(s, r, c);
      if IsDigit(v) {
        WriteExtends(s, r, c, v, t);
      }
    }
  }

  /**
   * The pass only makes forced moves: a solution that extends the board it
   * starts from extends the board it leaves, and such a pass never reports
   * "No solve". Put the other way round, "No solve" means no solution
   * extends the starting board.
   */
  lemma {:induction false} PassKeepsSolutions(s: Sudoku, r: int, c: int, t: Sudoku)
    requires IsGrid(s) && Position(s, r, c)
    requires IntendedSolved(t) && Extends(s, t)
    ensures !PassFrom(s, r, c).noSolve
    ensures Extends(PassFrom(s, r, c).board, t)
    decreases |s| - r, if r < |s| then |s[r]| - c else 0
  {
    if r < |s| {
      StepAdvances(s, r, c);
      StepKeepsSolutions(s, r, c, t);
      var n := StepAt(s, r, c);
      PassKeepsSolutions(n.board, n.row, n.col, t);
    }
  }

  /** On a 9×9 board without conflicts a step writes only a candidate, so it adds no conflict. */
  /**
   * Whatever the board, a value the step writes is a digit that no cell of
   * the same row, column or box holds at the moment it is written, so a write
   * never adds a repeat, even on a board that already has one.
   */
  lemma StepWritesUnseen(s: Sudoku, r: int, c: int)
    requires Position(s, r, c) && r < |s|
    ensures StepAt(s, r, c).Next? && StepAt(s, r, c).board != s ==>
              && c < |s[r]| && s[r][c] == 0
              && IsDigit(StepAt(s, r, c).board[r][c])
              && !SeenNear(s, r, c, StepAt(s, r, c).board[r][c])
              && StepAt(s, r, c).board == WriteToCell(s, r, c, StepAt(s, r, c).board[r][c])
  {
    if c < |s[r]| && s[r][c] == 0 {
      OutcomeFacts(GetValidNumMap(s, r, c).validNumbers);
    }
  }

  lemma StepKeepsNoConflicts(s: Sudoku, r: int, c: int)
    requires IsGrid(s) && NoConflicts(s) && Position(s, r, c) && r < |s|
    ensures StepAt(s, r, c).Next? ==> IsGrid(StepAt(s, r, c).board) && NoConflicts(StepAt(s, r, c).board)
  {
    if c < |s[r]| && s[r][c] == 0 {
      var m := GetValidNumMap(s, r, c).validNumbers;
      var v := Outcome(s, r, c);
      if IsDigit(v) {
        OutcomeFacts(m);
        CandidatesOnGrid(s, r, c);
        assert v in Eligible(m);
        WriteCandidateKeepsNoConflicts(s, r, c, v);
      }
    }
  }

  /** On a 9×9 board without conflicts the pass writes only candidates, so it adds no conflict. */
  lemma {:induction false} PassKeepsNoConflicts(s: Sudoku, r: int, c: int)
    requires IsGrid(s) && NoConflicts(s) && Position(s, r, c)
    ensures IsGrid(PassFrom(s, r, c).board)
    ensures NoConflicts(PassFrom(s, r, c).board)
    decreases |s| - r, if r < |s| then |s[r]| - c else 0
  {
    if r < |s| {
      StepAdvances(s, r, c);
      StepKeepsNoConflicts(s, r, c);
      match StepAt(s, r, c)
      case Stop =>
      case Next(t, r', c') =>
        PassKeepsNoConflicts(t, r', c');
    }
  }

  /** A step that neither stops nor writes at an empty cell of a board of empty cells and digits saw two or more eligible values. */
  lemma StepSkips(s: Sudoku, r: int, c: int)
    requires InDomain(s) && Position(s, r, c) && r < |s| && c < |s[r]| && s[r][c] == 0
    ensures StepAt(s, r, c) == Next(s, r, c + 1) ==> |Eligible(GetValidNumMap(s, r, c).validNumbers)| >= 2
  {
    GetValidNumMapKeys(s, r, c);
    OutcomeFacts(GetValidNumMap(s, r, c).validNumbers);
  }

  /**
   * A pass that neither writes nor fails on a board of empty cells and digits
   * found at least two eligible values in every empty cell it visited.
   */
  lemma {:induction false} PassStalls(s: Sudoku, r: int, c: int)
    requires InDomain(s) && Position(s, r, c)
    requires PassFrom(s, r, c) == PassResult(s, false)
    ensures forall i, j | InBoard(s, i, j) && !Before(i, j, r, c) && s[i][j] == 0 ::
              |Eligible(GetValidNumMap(s, i, j).validNumbers)| >= 2
    decreases |s| - r, if r < |s| then |s[r]| - c else 0
  {
    if r < |s| {
      StepAdvances(s, r, c);
      StepExtends(s, r, c);
      match StepAt(s, r, c)
      case Stop =>
        assert false;
      case Next(t, r', c') =>
        PassExtends(t, r', c');
        ExtendsAntisymmetric(s, t);
        PassStalls(s, r', c');
        forall i, j | InBoard(s, i, j) && !Before(i, j, r, c) && s[i][j] == 0
          ensures |Eligible(GetValidNumMap(s, i, j).validNumbers)| >= 2
        {
          if i == r && j == c {
            StepSkips(s, r, c);
          } else {
            assert !Before(i, j, r', c');
          }
        }
    }
  }

  /** Everything the pass from the first cell promises, gathered for the method below. */
  lemma PassFacts(s: Sudoku)
    ensures var res := PassFrom(s, 0, 0);
            && Extends(s, res.board)
            && ZeroCount(res.board) <= ZeroCount(s)
            && (ZeroCount(res.board) == ZeroCount(s) <==> res.board == s)
            && (res.noSolve ==>
                  exists i, j | InBoard(res.board, i, j) ::
                    res.board[i][j] == 0 && |Ineligible(GetValidNumMap(res.board, i, j).validNumbers)| == 9)
            && (IsGrid(s) && NoConflicts(s) ==> IsGrid(res.board) && NoConflicts(res.board))
            && (forall t | IsGrid(s) && IntendedSolved(t) && Extends(s, t) :: !res.noSolve && Extends(res.board, t))
            && (InDomain(s) && res.board == s && !res.noSolve ==>
                  forall i, j | InBoard(s, i, j) && s[i][j] == 0 :: |Eligible(GetValidNumMap(s, i, j).validNumbers)| >= 2)
  {
    var res := PassFrom(s, 0, 0);
    PassExtends(s, 0, 0);
    ExtendsCount(s, res.board);
    if res.board == s {
    } else {
      assert ZeroCount(res.board) < ZeroCount(s);
    }
    PassNoSolveWitness(s, 0, 0);
    if IsGrid(s) && NoConflicts(s) {
      PassKeepsNoConflicts(s, 0, 0);
    }
    forall t | IsGrid(s) && IntendedSolved(t) && Extends(s, t)
      ensures !res.noSolve && Extends(res.board, t)
    {
      PassKeepsSolutions(s, 0, 0, t);
    }
    if InDomain(s) && res == PassResult(s, false) {
      PassStalls(s, 0, 0);
    }
  }

  /**
   * One pass over the board (the body of the Go code's double loop): each
   * empty cell gets its eligibility map and UpdateCellWithValidNum, and the
   * pass stops at the first -1.
   */
  method PropagationPass(s: Sudoku) returns (board: Sudoku, noSolve: bool)
    ensures PassResult(board, noSolve) == PassFrom(s, 0, 0)
    ensures Extends(s, board)
    ensures ZeroCount(board) <= ZeroCount(s)
    ensures ZeroCount(board) == ZeroCount(s) <==> board == s
    ensures noSolve ==>
              exists i, j | InBoard(board, i, j) ::
                board[i][j] == 0 && |Ineligible(GetValidNumMap(board, i, j).validNumbers)| == 9
    ensures IsGrid(s) && NoConflicts(s) ==> IsGrid(board) && NoConflicts(board)
    ensures forall t | IsGrid(s) && IntendedSolved(t) && Extends(s, t) :: !noSolve && Extends(board, t)
    ensures InDomain(s) && board == s && !noSolve ==>
              forall i, j | InBoard(s, i, j) && s[i][j] == 0 :: |Eligible(GetValidNumMap(s, i, j).validNumbers)| >= 2
  {
    board, noSolve := s, false;
    var rowIndex := 0;
    while rowIndex < |board|
      invariant 0 <= rowIndex <= |board|
      invariant !noSolve
      invariant PassFrom(board, rowIndex, 0) == PassFrom(s, 0, 0)
    {
      var rowBoard, rowNoSolve := PassRow(board, rowIndex);
      if rowNoSolve {
        board, noSolve := rowBoard, true;
        break;
      }
      board := rowBoard;
      rowIndex := rowIndex + 1;
    }
    assert PassResult(board, noSolve) == PassFrom(s, 0, 0);
    PassFacts(s);
  }

  /** The pass over one row: the inner loop of the Go code's double loop. */
  method PassRow(s: Sudoku, rowIndex: int) returns (board: Sudoku, noSolve: bool)
    requires 0 <= rowIndex < |s|
    ensures SameShape(s, board)
    ensures noSolve ==> PassFrom(s, rowIndex, 0) == PassResult(board, true)
    ensures !noSolve ==> PassFrom(s, rowIndex, 0) == PassFrom(board, rowIndex + 1, 0)
  {
    board := s;
    var colIndex := 0;
    while colIndex < |board[rowIndex]|
      invariant SameShape(s, board)
      invariant 0 <= colIndex <= |board[rowIndex]|
      invariant PassFrom(board, rowIndex, colIndex) == PassFrom(s, rowIndex, 0)
    {
      if board[rowIndex][colIndex] == 0 {
        var validCell := GetValidNumMap(board, rowIndex, colIndex);
        var result;
        board, result := UpdateCellWithValidNum(board, validCell);
        if result == -1 {
          noSolve := true;
          return;
        }
      }
      colIndex := colIndex + 1;
    }
    noSolve := false;
  }
}

=== FILE: repaired.dfy ===
/**
 * The solved check with isRowFilledWithNum repaired, and the proof that on a
 * 9×9 board the repaired check accepts exactly the boards that follow the
 * documented rules.
 */
module RepairedCheck {
  import opened SudokuTypes
  import opened Boxes
  import opened Grid
  import opened Candidates
  import opened Validate

  /** A concrete row holding 1..9 once each: the Go code calls it unfilled. */
  lemma IsRowFilledWithNumMisses()
    ensures !IsRowFilledWithNum([1, 2, 3, 4, 5, 6, 7, 8, 9])
    ensures IsRowFilledWithNumCorrected([1, 2, 3, 4, 5, 6, 7, 8, 9])
  {
    var row := [1, 2, 3, 4, 5, 6, 7, 8, 9];
    forall d | IsDigit(d) ensures d in row {
      assert row[d - 1] == d;
    }
  }

  /** The presence map as evidently intended: the values the row holds are marked ineligible. */
  function MapValidNumCorrected(r: Row): (m: ValidNumbers)
    ensures Digits <= m.Keys
    ensures forall k | k in m :: m[k] <==> IsDigit(k) && k !in r
  {
    Eliminate(AllEligible(), r)
  }

  /** The row holds every value 1..9 (the intended meaning of isRowFilledWithNum). */
  function IsRowFilledWithNumCorrected(r: Row): (filled: bool)
    ensures filled <==> forall d | IsDigit(d) :: d in r
  {
    var m := MapValidNumCorrected(r);
    assert (forall d | IsDigit(d) :: d in r) ==> forall k | k in m :: !m[k];
    assert (forall k | k in m :: !m[k]) ==> forall d | IsDigit(d) :: d in r by {
      if forall k | k in m :: !m[k] {
        forall d | IsDigit(d) ensures d in r {
          assert d in m;
        }
      }
    }
    forall k | k in m :: !m[k]
  }

  /** A unit passes the repaired test. */
  function RowPassesCorrected(r: Row): bool {
    IsRowFilledWithNumCorrected(r) && RowHasNonRepeatingNum(r)
  }

  /** The solved check with the repaired row test and otherwise unchanged. */
  function ValidateSudokuCorrected(s: Sudoku): bool {
    UnitsPass(s, RowPassesCorrected)
  }

  /** The set of values a list holds. */
  function Values(r: Row): set<int> {
    set v | v in r
  }

  lemma {:induction false} NoRepeatsValuesCount(r: Row)
    requires NoRepeats(r)
    ensures |Values(r)| == |r|
  {
    if |r| > 0 {
      var init := r[..|r| - 1];
      NoRepeatsValuesCount(init);
      assert Values(r) == Values(init) + {r[|r| - 1]};
      assert r[|r| - 1] !in Values(init);
    }
  }

  lemma SubsetSameSize(a: set<int>, b: set<int>)
    requires a <= b && |a| == |b|
    ensures a == b
  {
    assert |b - a| == |b| - |a|;
    assert b - a == {};
    forall x | x in b ensures x in a {
      if x !in a {
        assert false;
      }
    }
  }

  /**
   * A list of nine values passes the repaired test exactly when it holds
   * nine different digits.
   */
  lemma RowPassesCorrectedIff(r: Row)
    requires |r| == 9
    ensures RowPassesCorrected(r) <==> (forall i | 0 <= i < 9 :: IsDigit(r[i])) && NoRepeats(r)
  {
    DigitsCount();
    if RowPassesCorrected(r) {
      NoRepeatsValuesCount(r);
      assert Digits <= Values(r);
      SubsetSameSize(Digits, Values(r));
      forall i | 0 <= i < 9 ensures IsDigit(r[i]) {
        assert r[i] in Values(r);
      }
    }
    if (forall i | 0 <= i < 9 :: IsDigit(r[i])) && NoRepeats(r) {
      NoRepeatsValuesCount(r);
      assert Values(r) <= Digits;
      SubsetSameSize(Values(r), Digits);
      forall d | IsDigit(d) ensures d in r {
        assert d in Values(r);
      }
    }
  }

  /** Row of the k-th cell (k in 0..8, row-major) of box number b. */
  function BoxRow(b: int, k: int): int {
    3 * (b / 3) + k / 3
  }

  /** Column of the k-th cell (k in 0..8, row-major) of box number b. */
  function BoxCol(b: int, k: int): int {
    3 * (b % 3) + k % 3
  }

  /** The nine values of box number b of a 9×9 board, row-major. */
  function BoxSeq(s: Sudoku, b: int): (box: Row)
    requires IsGrid(s) && 0 <= b < 9
    ensures |box| == 9
  {
    seq(9, k requires 0 <= k < 9 => s[BoxRow(b, k)][BoxCol(b, k)])
  }

  lemma WidthOfGrid(s: Sudoku)
    requires IsGrid(s)
    ensures Width(s) == 9
  {
  }

  lemma BoxIndicesOfGrid(s: Sudoku)
    requires IsGrid(s)
    ensures forall b :: b in BoxIndices(s) <==> 0 <= b < 9
  {
    forall b | 0 <= b < 9 ensures b in BoxIndices(s) {
      var r, c := 3 * (b / 3), 3 * (b % 3);
      assert GetSquareBoxIndex(r, c) == b;
    }
  }

  function Clamp(x: int, n: int): int {
    if x < n then x else n
  }

  /** A cell of a 9×9 board has box number b iff its row is in b's row band and its column in b's column band. */
  lemma BoxIndexBands(r: int, c: int, b: int)
    requires 0 <= r < 9 && 0 <= c < 9 && 0 <= b < 9
    ensures 0 <= 3 * (b % 3) <= 6
    ensures GetSquareBoxIndex(r, c) == b <==> r / 3 == b / 3 && 3 * (b % 3) <= c < 3 * (b % 3) + 3
  {
    Decompose(b);
    Decompose(c);
    Recompose(r / 3, c / 3);
  }

  /** The values a row prefix contributes to box number b: its part of the box's column band. */
  lemma {:induction false} RowBoxPartPrefix(row: Row, r: int, b: int)
    requires |row| <= 9 && 0 <= r < 9 && 0 <= b < 9
    ensures var lo := 3 * (b % 3);
            RowBoxPart(row, r, b) ==
              if r / 3 == b / 3 then row[Clamp(lo, |row|)..Clamp(lo + 3, |row|)] else []
  {
    if |row| > 0 {
      var c := |row| - 1;
      var prefix := row[..c];
      RowBoxPartPrefix(prefix, r, b);
      BoxIndexBands(r, c, b);
      var lo := 3 * (b % 3);
      if r / 3 == b / 3 {
        if c < lo {
          assert row[Clamp(lo, |row|)..Clamp(lo + 3, |row|)] == [];
        } else if c < lo + 3 {
          assert prefix[lo..c] == row[lo..c];
          assert row[lo..c + 1] == row[lo..c] + [row[c]];
        } else {
          assert prefix[lo..lo + 3] == row[lo..lo + 3];
        }
      }
    }
  }

  /** A full row contributes three values to the boxes of its band and nothing to the others. */
  lemma RowBoxPartOfGridRow(row: Row, r: int, b: int)
    requires |row| == 9 && 0 <= r < 9 && 0 <= b < 9
    ensures RowBoxPart(row, r, b) ==
              if r / 3 == b / 3 then row[3 * (b % 3)..3 * (b % 3) + 3] else []
  {
    RowBoxPartPrefix(row, r, b);
  }

  /** How many of the band's three rows lie among the first `x` rows counted from the band's top. */
  function Band(x: int): int {
    if x < 0 then 0 else if x > 3 then 3 else x
  }

  /** The m-th three values of box b's list are the box's stretch of its m-th row. */
  lemma BoxSeqBandRow(s: Sudoku, b: int, m: int)
    requires IsGrid(s) && 0 <= b < 9 && 0 <= m < 3
    ensures 0 <= 3 * (b / 3) + m < 9 && 0 <= 3 * (b % 3) <= 6
    ensures BoxSeq(s, b)[3 * m..3 * m + 3] == s[3 * (b / 3) + m][3 * (b % 3)..3 * (b % 3) + 3]
  {
    Decompose(b);
    forall k | 3 * m <= k < 3 * m + 3
      ensures BoxSeq(s, b)[k] == s[3 * (b / 3) + m][3 * (b % 3) + (k - 3 * m)]
    {
      Recompose(m, k - 3 * m);
      BoxSeqAt(s, b, k);
    }
  }

  /** The first n rows of a 9×9 board contribute the first 3·Band(n − top) values of box b. */
  lemma {:induction false} BoxByIndexPrefix(s: Sudoku, b: int, n: int)
    requires IsGrid(s) && 0 <= b < 9 && 0 <= n <= 9
    ensures BoxByIndex(s[..n], b) == BoxSeq(s, b)[..3 * Band(n - 3 * (b / 3))]
  {
    if n > 0 {
      var r := n - 1;
      BoxByIndexPrefix(s, b, r);
      assert s[..n][..r] == s[..r] && s[..n][r] == s[r];
      RowBoxPartOfGridRow(s[r], r, b);
      var box := BoxSeq(s, b);
      var top := 3 * (b / 3);
      Decompose(r);
      Decompose(b);
      if r / 3 == b / 3 {
        var m := r - top;
        BoxSeqBandRow(s, b, m);
        assert Band(n - top) == m + 1 && Band(r - top) == m;
        assert box[..3 * m + 3] == box[..3 * m] + box[3 * m..3 * m + 3];
      } else {
        assert r < top || r >= top + 3;
      }
    }
  }

  /** On a 9×9 board the Go code's box-by-number collection yields the box row-major. */
  lemma BoxByIndexOfGrid(s: Sudoku, b: int)
    requires IsGrid(s) && 0 <= b < 9
    ensures BoxByIndex(s, b) == BoxSeq(s, b)
  {
    BoxByIndexPrefix(s, b, 9);
    assert s[..9] == s;
  }

  /** On a 9×9 board the rows pass the repaired test iff every cell holds a digit and no row repeats one. */
  lemma RowsCorrect(s: Sudoku)
    requires IsGrid(s)
    ensures AllRowsPass(s, RowPassesCorrected) <==>
              (forall r, c | 0 <= r < 9 && 0 <= c < 9 :: IsDigit(s[r][c])) &&
              (forall r, c, j | 0 <= r < 9 && 0 <= c < j < 9 :: s[r][c] != s[r][j])
  {
    forall r | 0 <= r < 9
      ensures RowPassesCorrected(s[r]) <==>
                (forall c | 0 <= c < 9 :: IsDigit(s[r][c])) && NoRepeats(s[r])
    {
      RowPassesCorrectedIff(s[r]);
    }
  }

  /** One column passes the repaired test iff it repeats no value, when every cell holds a digit. */
  lemma ColumnCorrect(s: Sudoku, c: int)
    requires IsGrid(s) && 0 <= c < 9
    requires forall r, c | 0 <= r < 9 && 0 <= c < 9 :: IsDigit(s[r][c])
    ensures RowPassesCorrected(ColumnOf(s, c)) <==>
              forall r, i | 0 <= r < i < 9 :: s[r][c] != s[i][c]
  {
    var column := ColumnOf(s, c);
    assert forall r | 0 <= r < 9 :: column[r] == s[r][c];
    RowPassesCorrectedIff(column);
  }

  /** With every cell a digit, the columns pass iff no column repeats a value. */
  lemma ColumnsCorrect(s: Sudoku)
    requires IsGrid(s)
    requires forall r, c | 0 <= r < 9 && 0 <= c < 9 :: IsDigit(s[r][c])
    ensures AllColumnsPass(s, RowPassesCorrected) <==>
              (forall c, r, i | 0 <= c < 9 && 0 <= r < i < 9 :: s[r][c] != s[i][c])
  {
    WidthOfGrid(s);
    if AllColumnsPass(s, RowPassesCorrected) {
      forall c, r, i | 0 <= c < 9 && 0 <= r < i < 9 ensures s[r][c] != s[i][c] {
        ColumnCorrect(s, c);
      }
    }
    if forall c, r, i | 0 <= c < 9 && 0 <= r < i < 9 :: s[r][c] != s[i][c] {
      forall c | 0 <= c < Width(s) ensures RowPassesCorrected(ColumnOf(s, c)) {
        ColumnCorrect(s, c);
      }
    }
  }

  /** One box passes the repaired test iff it repeats no value, when every cell holds a digit. */
  lemma BoxCorrect(s: Sudoku, b: int)
    requires IsGrid(s) && 0 <= b < 9
    requires forall r, c | 0 <= r < 9 && 0 <= c < 9 :: IsDigit(s[r][c])
    ensures RowPassesCorrected(BoxByIndex(s, b)) <==> NoRepeats(BoxSeq(s, b))
  {
    BoxByIndexOfGrid(s, b);
    var box := BoxSeq(s, b);
    forall k | 0 <= k < 9 ensures IsDigit(box[k]) {
      assert 0 <= BoxRow(b, k) < 9 && 0 <= BoxCol(b, k) < 9;
    }
    RowPassesCorrectedIff(box);
  }

  /** With every cell a digit, the boxes pass iff no box repeats a value. */
  lemma BoxesCorrect(s: Sudoku)
    requires IsGrid(s)
    requires forall r, c | 0 <= r < 9 && 0 <= c < 9 :: IsDigit(s[r][c])
    ensures AllBoxesPass(s, RowPassesCorrected) <==>
              (forall b | 0 <= b < 9 :: NoRepeats(BoxSeq(s, b)))
  {
    BoxIndicesOfGrid(s);
    if AllBoxesPass(s, RowPassesCorrected) {
      forall b | 0 <= b < 9 ensures NoRepeats(BoxSeq(s, b)) {
        assert b in BoxIndices(s);
        BoxCorrect(s, b);
      }
    }
    if forall b | 0 <= b < 9 :: NoRepeats(BoxSeq(s, b)) {
      forall b | b in BoxIndices(s) ensures RowPassesCorrected(BoxByIndex(s, b)) {
        BoxCorrect(s, b);
      }
    }
  }

  /** A number in 0..8 is three times its band plus its offset in the band. */
  lemma Decompose(x: int)
    requires 0 <= x < 9
    ensures 0 <= x / 3 < 3 && 0 <= x % 3 < 3 && x == 3 * (x / 3) + x % 3
  {
  }

  /** Band and offset are recovered from three times a band plus an offset. */
  lemma Recompose(x: int, y: int)
    requires 0 <= x < 3 && 0 <= y < 3
    ensures (3 * x + y) / 3 == x && (3 * x + y) % 3 == y
  {
  }

  /** Two distinct cells of one box sit at distinct positions of that box's row-major list. */
  lemma BoxPositions(r: int, c: int, i: int, j: int) returns (b: int, k1: int, k2: int)
    requires 0 <= r < 9 && 0 <= c < 9 && 0 <= i < 9 && 0 <= j < 9
    requires SameBox(r, c, i, j) && (r != i || c != j)
    ensures 0 <= b < 9 && 0 <= k1 < 9 && 0 <= k2 < 9 && k1 != k2
    ensures BoxRow(b, k1) == r && BoxCol(b, k1) == c
    ensures BoxRow(b, k2) == i && BoxCol(b, k2) == j
  {
    Decompose(r);
    Decompose(c);
    Decompose(i);
    Decompose(j);
    b := 3 * (r / 3) + c / 3;
    k1 := 3 * (r % 3) + c % 3;
    k2 := 3 * (i % 3) + j % 3;
    Recompose(r / 3, c / 3);
    Recompose(r % 3, c % 3);
    Recompose(i % 3, j % 3);
  }

  /** The k-th value of box b's list is the value of its k-th cell. */
  lemma BoxSeqAt(s: Sudoku, b: int, k: int)
    requires IsGrid(s) && 0 <= b < 9 && 0 <= k < 9
    ensures 0 <= BoxRow(b, k) < 9 && 0 <= BoxCol(b, k) < 9
    ensures BoxSeq(s, b)[k] == s[BoxRow(b, k)][BoxCol(b, k)]
  {
  }

  lemma BoxCellsSameBox(b: int, k1: int, k2: int)
    requires 0 <= b < 9 && 0 <= k1 < k2 < 9
    ensures 0 <= BoxRow(b, k1) < 9 && 0 <= BoxCol(b, k1) < 9
    ensures 0 <= BoxRow(b, k2) < 9 && 0 <= BoxCol(b, k2) < 9
    ensures SameBox(BoxRow(b, k1), BoxCol(b, k1), BoxRow(b, k2), BoxCol(b, k2))
    ensures BoxRow(b, k1) != BoxRow(b, k2) || BoxCol(b, k1) != BoxCol(b, k2)
  {
    Decompose(b);
    Decompose(k1);
    Decompose(k2);
    Recompose(b / 3, k1 / 3);
    Recompose(b / 3, k2 / 3);
    Recompose(b % 3, k1 % 3);
    Recompose(b % 3, k2 % 3);
  }

  /** Every row, column and box list of a conflict-free board is free of repeats. */
  lemma NoConflictsBoxes(s: Sudoku)
    requires IsGrid(s)
    requires forall r, c | 0 <= r < 9 && 0 <= c < 9 :: IsDigit(s[r][c])
    requires NoConflicts(s)
    ensures forall b | 0 <= b < 9 :: NoRepeats(BoxSeq(s, b))
  {
    forall b | 0 <= b < 9 ensures NoRepeats(BoxSeq(s, b)) {
      forall k1, k2 | 0 <= k1 < k2 < 9 ensures BoxSeq(s, b)[k1] != BoxSeq(s, b)[k2] {
        BoxCellsSameBox(b, k1, k2);
      }
    }
  }

  /** Two distinct cells of one box differ when the box's list repeats nothing. */
  lemma BoxPairDiffers(s: Sudoku, r: int, c: int, i: int, j: int)
    requires IsGrid(s)
    requires 0 <= r < 9 && 0 <= c < 9 && 0 <= i < 9 && 0 <= j < 9
    requires SameBox(r, c, i, j) && (r != i || c != j)
    requires forall b | 0 <= b < 9 :: NoRepeats(BoxSeq(s, b))
    ensures s[r][c] != s[i][j]
  {
    var b, k1, k2 := BoxPositions(r, c, i, j);
    BoxSeqAt(s, b, k1);
    BoxSeqAt(s, b, k2);
    DistinctPositions(BoxSeq(s, b), k1, k2);
  }

  lemma DistinctPositions(row: Row, k1: int, k2: int)
    requires NoRepeats(row) && 0 <= k1 < |row| && 0 <= k2 < |row| && k1 != k2
    ensures row[k1] != row[k2]
  {
    if k2 < k1 {
      assert row[k2] != row[k1];
    }
  }

  /**
   * With every cell a digit, the three kinds of units are free of repeats
   * exactly when no two distinct cells sharing a unit hold the same value.
   */
  lemma UnitsFreeOfRepeats(s: Sudoku)
    requires IsGrid(s)
    requires forall r, c | 0 <= r < 9 && 0 <= c < 9 :: IsDigit(s[r][c])
    ensures NoConflicts(s) <==>
              && (forall r, c, j | 0 <= r < 9 && 0 <= c < j < 9 :: s[r][c] != s[r][j])
              && (forall c, r, i | 0 <= c < 9 && 0 <= r < i < 9 :: s[r][c] != s[i][c])
              && (forall b | 0 <= b < 9 :: NoRepeats(BoxSeq(s, b)))
  {
    if NoConflicts(s) {
      NoConflictsBoxes(s);
    }
    if && (forall r, c, j | 0 <= r < 9 && 0 <= c < j < 9 :: s[r][c] != s[r][j])
       && (forall c, r, i | 0 <= c < 9 && 0 <= r < i < 9 :: s[r][c] != s[i][c])
       && (forall b | 0 <= b < 9 :: NoRepeats(BoxSeq(s, b)))
    {
      forall r, c, i, j | 0 <= r < 9 && 0 <= c < 9 && 0 <= i < 9 && 0 <= j < 9
          && (r != i || c != j) && SameUnit(r, c, i, j) && s[r][c] != 0
        ensures s[r][c] != s[i][j]
      {
        if r == i {
          if c < j { assert s[r][c] != s[r][j]; } else { assert s[r][j] != s[r][c]; }
        } else if c == j {
          if r < i { assert s[r][c] != s[i][c]; } else { assert s[i][c] != s[r][c]; }
        } else {
          BoxPairDiffers(s, r, c, i, j);
        }
      }
    }
  }

  /**
   * On a 9×9 board the repaired check accepts exactly the boards that follow
   * the documented rules.
   */
  lemma ValidateSudokuCorrectedMeansSolved(s: Sudoku)
    requires IsGrid(s)
    ensures ValidateSudokuCorrected(s) <==> IntendedSolved(s)
  {
    RowsCorrect(s);
    if forall r, c | 0 <= r < 9 && 0 <= c < 9 :: IsDigit(s[r][c]) {
      ColumnsCorrect(s);
      BoxesCorrect(s);
      UnitsFreeOfRepeats(s);
    }
  }
}

=== FILE: types.dfy ===
/** The solver's data types: boards, rows, eligibility maps and cells. */
module SudokuTypes {

  /** A list of values. The solver uses it for a row, for a column and for a 3×3 box. */
  type Row = seq<int>

  /** A board as a list of rows; 0 marks an empty cell. Nothing in the type fixes its shape. */
  type Sudoku = seq<Row>

  /** For each key, whether that value may still be placed in a cell. */
  type ValidNumbers = map<int, bool>

  /** Number of cells in a row (and in a column or a box). */
  const RowLength: int := 9

  /** Number of rows of a board. */
  const ColLength: int := 9

  /** A board position together with the eligibility map computed for it. */
  datatype Cell = Cell(rowIndex: int, colIndex: int, validNumbers: ValidNumbers)

  /** The zero value of a Cell: position (0, 0) and a nil map, which has no keys. */
  const NoCell: Cell := Cell(0, 0, map[])

  /** The values a solved cell may hold. */
  const Digits: set<int> := set v | 1 <= v <= 9

  predicate IsDigit(v: int) {
    1 <= v <= 9
  }

  /** A board of ColLength rows, each RowLength long. */
  predicate IsGrid(s: Sudoku) {
    |s| == ColLength && forall r | 0 <= r < |s| :: |s[r]| == RowLength
  }

  /** Every value on the board is empty (0) or a digit. */
  predicate InDomain(s: Sudoku) {
    forall r, c | 0 <= r < |s| && 0 <= c < |s[r]| :: 0 <= s[r][c] <= 9
  }

  /** (r, c) names a cell that exists on the (possibly ragged) board. */
  predicate InBoard(s: Sudoku, r: int, c: int) {
    0 <= r < |s| && 0 <= c < |s[r]|
  }

  /** The documented shape of an eligibility map: exactly the keys 1..9. */
  predicate WellFormedValidNumbers(m: ValidNumbers) {
    m.Keys == Digits
  }

  /** A cell on a 9×9 board with a well-formed eligibility map. */
  predicate ValidCell(cell: Cell) {
    && 0 <= cell.rowIndex < ColLength
    && 0 <= cell.colIndex < RowLength
    && WellFormedValidNumbers(cell.validNumbers)
  }

  /** The keys marked eligible. */
  function Eligible(m: ValidNumbers): set<int> {
    set k | k in m && m[k]
  }

  /** The keys marked ineligible. */
  function Ineligible(m: ValidNumbers): set<int> {
    set k | k in m && !m[k]
  }

  /** No value occurs twice in the list. */
  predicate NoRepeats(r: Row) {
    forall i, j | 0 <= i < j < |r| :: r[i] != r[j]
  }

  /** Every key of the map is either eligible or ineligible, never both. */
  lemma EligibleSplit(m: ValidNumbers)
    ensures Eligible(m) !! Ineligible(m)
    ensures Eligible(m) + Ineligible(m) == m.Keys
    ensures |Eligible(m)| + |Ineligible(m)| == |m.Keys|
  {
  }

  lemma DigitsCount()
    ensures |Digits| == 9
  {
    assert Digits == {1, 2, 3, 4, 5, 6, 7, 8, 9};
  }
}

=== FILE: validate.dfy ===
/**
 * The solved check. `ValidateSudoku` is modelled as the Go code writes it; the
 * rules its documentation states are `IntendedSolved`, and the lemmas below
 * record how far apart the two are and what the repaired check computes.
 */
module Validate {
  import opened SudokuTypes
  import opened Boxes
  import opened Grid
  import opened Candidates

  /**
   * The "presence map" of a row as the Go code writes it: the receiver is never
   * read, and every value 1..9 comes back eligible whatever the row holds.
   */
  function MapValidNum(r: Row): (m: ValidNumbers)
    ensures WellFormedValidNumbers(m)
    ensures Eligible(m) == Digits
  {
    AllEligible()
  }

  /**
   * Meant to say that the row holds every value 1..9: it reports true only
   * when no key of MapValidNum's map is still eligible, which never happens.
   */
  function IsRowFilledWithNum(r: Row): (filled: bool)
    ensures !filled
  {
    var validNum := MapValidNum(r);
    assert 1 in Eligible(validNum);
    forall k | k in validNum :: !validNum[k]
  }

  /**
   * No value occurs twice in the row, zeros included: counts occurrences in a
   * map and stops at the first count above one.
   */
  function RowHasNonRepeatingNum(r: Row): (unique: bool)
    ensures unique <==> NoRepeats(r)
  {
    CountScan(r, 0, map[])
  }

  /**
   * The counting loop of RowHasNonRepeatingNum from position i on, where
   * `validMap` counts each value of r[..i] once.
   */
  function CountScan(r: Row, i: nat, validMap: map<int, int>): (unique: bool)
    requires i <= |r|
    requires NoRepeats(r[..i])
    requires forall v :: v in validMap <==> v in r[..i]
    requires forall v | v in validMap :: validMap[v] == 1
    ensures unique <==> NoRepeats(r)
    decreases |r| - i
  {
    if i == |r| then
      assert r[..i] == r;
      true
    else
      var column := r[i];
      var count := (if column in validMap then validMap[column] else 0) + 1;
      assert r[..i + 1] == r[..i] + [column];
      if count > 1 then
        assert column in r[..i];
        var j :| 0 <= j < i && r[j] == column;
        assert !NoRepeats(r) by {
          assert r[j] == r[i];
        }
        false
      else
        CountScan(r, i + 1, validMap[column := count])
  }

  /** The widest row's length: the Go code's column map has one key per column index seen. */
  function Width(s: Sudoku): (w: nat)
    ensures forall r | 0 <= r < |s| :: |s[r]| <= w
    ensures |s| > 0 ==> exists r | 0 <= r < |s| :: |s[r]| == w
    ensures |s| == 0 ==> w == 0
  {
    if |s| == 0 then 0
    else
      var init := s[..|s| - 1];
      assert forall r | 0 <= r < |init| :: init[r] == s[r];
      var w := Width(init);
      if w < |s[|s| - 1]| then |s[|s| - 1]| else w
  }

  /** The values of `row` (row number r) whose cell has box number `index`, left to right. */
  function RowBoxPart(row: Row, r: int, index: int): Row {
    if |row| == 0 then []
    else
      var c := |row| - 1;
      RowBoxPart(row[..c], r, index) + (if GetSquareBoxIndex(r, c) == index then [row[c]] else [])
  }

  /** The Go code's `threeByThreeSq[index]`: values of all cells with that box number, row-major. */
  function BoxByIndex(s: Sudoku, index: int): Row {
    if |s| == 0 then []
    else
      var r := |s| - 1;
      BoxByIndex(s[..r], index) + RowBoxPart(s[r], r, index)
  }

  /** The box numbers that occur on the board: the keys of the Go code's box map. */
  function BoxIndices(s: Sudoku): set<int> {
    set r, c | 0 <= r < |s| && 0 <= c < |s[r]| :: GetSquareBoxIndex(r, c)
  }

  /** Every row passes the unit test. */
  function AllRowsPass(s: Sudoku, pass: Row -> bool): bool {
    forall r | 0 <= r < |s| :: pass(s[r])
  }

  /** Every column, collected by column index up to the widest row, passes the unit test. */
  function AllColumnsPass(s: Sudoku, pass: Row -> bool): bool {
    forall c | 0 <= c < Width(s) :: pass(ColumnOf(s, c))
  }

  /** Every box, collected by box number, passes the unit test. */
  function AllBoxesPass(s: Sudoku, pass: Row -> bool): bool {
    forall b | b in BoxIndices(s) :: pass(BoxByIndex(s, b))
  }

  /**
   * The shape of the solved check: `pass` must hold of every row, of every
   * column collected by index and of every box collected by box number.
   */
  function UnitsPass(s: Sudoku, pass: Row -> bool): bool {
    AllRowsPass(s, pass) && AllColumnsPass(s, pass) && AllBoxesPass(s, pass)
  }

  /** A unit passes the Go code's test: "filled" and free of repeats. */
  function RowPasses(r: Row): bool {
    IsRowFilledWithNum(r) && RowHasNonRepeatingNum(r)
  }

  /**
   * The solved check as written. Because no row ever counts as filled it
   * accepts exactly the board with no rows at all.
   */
  function ValidateSudoku(s: Sudoku): (solved: bool)
    ensures solved <==> |s| == 0
  {
    if |s| > 0 then
      assert !RowPasses(s[0]);
      UnitsPass(s, RowPasses)
    else
      assert BoxIndices(s) == {};
      UnitsPass(s, RowPasses)
  }

  /**
   * The rules the documentation of the solved check states: no empty cell,
   * every cell a value 1..9, and no value twice in a row, column or 3×3 box.
   */
  ghost predicate IntendedSolved(s: Sudoku) {
    && IsGrid(s)
    && (forall r, c | 0 <= r < 9 && 0 <= c < 9 :: IsDigit(s[r][c]))
    && NoConflicts(s)
  }

  /** The as-written check rejects every board that follows the documented rules. */
  lemma ValidateSudokuRejectsSolvedBoards(s: Sudoku)
    requires IntendedSolved(s)
    ensures !ValidateSudoku(s)
    ensures !IsRowFilledWithNum(s[0])
  {
  }
}
